=== FILE: README.md ===
# Blog MCP server — a Dafny model of its core

`blog_mcp_server.py` is a Model Context Protocol server. It answers questions about the
posts of a Jekyll blog, using the metadata document `back-links.json` that each allowed
GitHub repository publishes. This project models the server's logic in Dafny, covering:

- the per-repository metadata cache (`get_blog_data`) with its five-minute freshness window
  and its stale fallback;
- the repository allow-list (`initialize_repos`, `validate_repo`, `list_repos`);
- the blog-path filter (`_d/`, `_posts/`, `td/`) shared by every tool, and the blog files
  derived from the index (`get_blog_files`);
- `blog_search`, with its query normalisation, limit clamping and early stop;
- `recent_blog_posts` and `all_blog_posts`, which sort stably newest first by
  `last_modified`;
- `random_blog` and `random_blog_url`, where the random pick is a parameter and is only
  stated as membership;
- `read_blog_post`: argument handling, then a direct hit, then one top-level redirect hop,
  then the deprecated per-post `redirect_url`;
- `parse_markdown_content`: title, date, blank-line collapse, excerpt and the error value;
- the one-million-character truncation of `fetch_url`;
- the argument checks and defaults of `get_recent_changes`.

Modules:

| module | what it holds |
|---|---|
| `Wrappers` | `Option` and `Result` |
| `Errors` | the reasons a tool gives up |
| `Strings` | the Python `str` operations used by the server |
| `Index` | the metadata index, the blog-path filter, blog files and post records |
| `Cache` | `get_blog_data` |
| `Repos` | the allow-list |
| `Ordering` | Python string order and the stable descending sort |
| `Queries` | search, listing and random choice over one index |
| `Resolve` | `read_blog_post` path resolution |
| `Fetch` | download truncation |
| `Markdown` | `parse_markdown_content` |
| `Changes` | `get_recent_changes` arguments |
| `Tools` | each tool composed in source order with validation and the cache |

How the outside world enters the model:

- The clock reading is the `now: real` parameter.
- What the metadata download produces is a `FetchOutcome` parameter.
- The body of a markdown file's HTTP response, before the size limit is applied, is a `Download` parameter.
- What GitHub lists for a wildcard configuration is a `RepoListing` parameter.
- `random.choice` is a `draw: nat` parameter.

`url_info` is a JSON object read in insertion order. It is modelled as a sequence of
`(url path, PostInfo)` pairs, and every scan walks it in that order.

Two consequences of the code are easy to miss:

- A failed metadata fetch with nothing cached does not raise. `get_blog_data` returns an
  empty index (`blog_mcp_server.py:166-168`), and `Cache.GetBlogData` does the same.
- A failed fetch stores nothing, so the next call fetches again. Within one cache window a
  repository is therefore fetched at most once more than its fetches failed
  (`Cache.FetchesWithinWindow`). When the first fetch succeeds, it is fetched at most once
  (`Cache.AtMostOneFetchPerWindow`).

## Model

| member | source | states |
|---|---|---|
| Cache.IsFresh | blog_mcp_server.py:143-145 | An entry is fresh exactly when it exists and less than 300 s have passed since it was stored. |
| Cache.GetBlogData | blog_mcp_server.py:136-168 | A fresh entry is served with no fetch and no change. Otherwise a fetch happens. A successful fetch is returned and stored stamped with `now`. A failed fetch returns the old entry however old it is, else the empty index, and stores nothing. No other repository's entry changes. |
| Cache.AtMostOneFetchPerWindow | blog_mcp_server.py:143-155 | Two calls within one cache duration both fetch only if the first fetch failed. |
| Cache.RepeatIsCacheHit | blog_mcp_server.py:143-155 | After a call that served a fresh entry or stored a fetched one, a call within the window is a cache hit that returns the same data. |
| Cache.Run | blog_mcp_server.py:136-168 | Only counts calls, fetches and failed fetches over a sequence of calls: failures never outnumber fetches, and fetches never outnumber calls. The window bounds the cache promises are stated by `Cache.FetchesWithinWindow` and `Cache.NoFetchWhileFresh`, which use these counts. |
| Cache.NoFetchWhileFresh | blog_mcp_server.py:143-145 | While an entry stamped at or after `t0` exists, no call before `t0 + 300` fetches. |
| Cache.FetchesWithinWindow | blog_mcp_server.py:136-168 | Calls within one cache duration fetch at most one more time than they fail. |
| Repos.ExplicitRepos | blog_mcp_server.py:78-80 | The explicit configuration gives one stripped name per comma-separated part, in order. |
| Repos.EnsureDefault | blog_mcp_server.py:83-85 | The default repository is in the result. It is put at the front when it is missing, and the list is left alone otherwise. |
| Repos.InitializeRepos | blog_mcp_server.py:57-85 | The allowed list always contains the default. A failed wildcard listing gives exactly `[default]`. A successful listing, or an explicit configuration, gives those names with the default put in front when missing. |
| Repos.ValidateRepo | blog_mcp_server.py:88-99 | No name means the default. A given name is accepted exactly when its stripped form is on the list, and the stripped form is returned. Otherwise the error names the stripped repository and the list. |
| Repos.ValidateRepoIdempotent | blog_mcp_server.py:88-99 | A name that validation returned validates again to itself. |
| Repos.InitializedListAccepts | blog_mcp_server.py:57-99 | After initialisation, the default and every configured name (with any surrounding whitespace) validate. |
| Repos.InitializedListSound | blog_mcp_server.py:78-85 | Every name on an explicitly configured list is the default or a stripped configured part. |
| Repos.ListRepos | blog_mcp_server.py:292-306 | The listed repositories are never empty. An initialised list is returned as it is. An empty one is replaced by exactly the list `InitializeRepos` builds, so the default is in it. |
| Index.Lookup | blog_mcp_server.py:488-490 | `path in url_info`: absent exactly when no entry has that key. With distinct keys it returns that entry's record. |
| Index.IsBlogPath | blog_mcp_server.py:180-187 | A markdown path is a blog path exactly when it starts with `_d/`, `_posts/` or `td/`. The emptiness test adds nothing to the prefix tests. |
| Index.BlogEntries | blog_mcp_server.py:178-187 | An entry is kept exactly when its markdown path is non-empty and starts with `_d/`, `_posts/` or `td/`. |
| Index.BlogEntriesAppend | blog_mcp_server.py:178-187 | Filtering distributes over concatenation, so index order is kept. |
| Index.BlogEntriesIdempotent | blog_mcp_server.py:178-187 | Filtering twice is filtering once. |
| Index.FileOf | blog_mcp_server.py:189-195 | A blog file's path is the markdown path. Its download URL is the raw GitHub URL of that path on branch `master` of the repository, and its page URL is the blog URL plus the index key. Its name is the text after the last `/`: a slash-free suffix of the path, preceded by `/` when shorter, and the whole path when the path has no `/`. |
| Index.BlogFiles | blog_mcp_server.py:171-199 | There is one file per blog entry, in index order, and every path is a blog path. |
| Index.BlogFilesComplete | blog_mcp_server.py:171-199 | Every blog entry's file is listed, and every listed file comes from a blog entry. |
| Index.PostOf | blog_mcp_server.py:400-409 | A post record carries the entry's URL, markdown path, timestamp, description, size, file path and redirect URL. A present title is kept, and a missing one becomes "Untitled". |
| Index.PostsOf | blog_mcp_server.py:389-410 | There is one post record per entry, in order. |
| Ordering.LexLeTotal | blog_mcp_server.py:415-422 | Python string comparison is total. |
| Ordering.LexLeTransitive | blog_mcp_server.py:415-422 | Python string comparison is transitive. |
| Ordering.LexLeAntisymmetric | blog_mcp_server.py:415-422 | Strings each at most the other are equal. |
| Ordering.SortKey | blog_mcp_server.py:416-420 | A post's key is its `last_modified` when present, else the placeholder `0000-00-00T00:00:00`. The key is never empty, and the placeholder sorts no later than any well-formed timestamp, so undated posts go after dated ones. |
| Ordering.PaddedLe | blog_mcp_server.py:416-420 | A string no longer than another, whose every character is at most the other's at the same position, sorts no later than it. |
| Ordering.Insert | blog_mcp_server.py:415-422 | Insertion adds exactly the new post and keeps the others. |
| Ordering.InsertDescending | blog_mcp_server.py:415-422 | Inserting into a newest-first list keeps it newest first. |
| Ordering.DescendingCons | blog_mcp_server.py:415-422 | A post no older than every post of a newest-first list may go in front of it. |
| Ordering.SortPosts | blog_mcp_server.py:415-422 | The sort is a permutation of its input. |
| Ordering.SortPostsDescending | blog_mcp_server.py:415-422 | The sorted list is newest first by `last_modified`, and posts without one count as the placeholder timestamp. |
| Ordering.WithKey | blog_mcp_server.py:415-422 | A post is among the posts with a given key exactly when it is in the list and has that key. |
| Ordering.InsertKeepsKeyOrder | blog_mcp_server.py:415-422 | Inserting keeps posts with equal keys in their original relative order. |
| Ordering.SortPostsStable | blog_mcp_server.py:415-422 | The sort is stable: for every key, the posts with that key keep their index order. |
| Queries.ClampLimit | blog_mcp_server.py:569-575 | The limit is clamped into `[1, max]`, or is the default when it does not parse. |
| Queries.NormalizeQuery | blog_mcp_server.py:566-578 | The query is refused exactly when it is blank. Otherwise the result is the first `min(n, 100)` characters of the lower-cased stripped query, with no upper-case letters. |
| Queries.MatchesQuery | blog_mcp_server.py:603-606 | The empty query matches every post, and a query that matches is no longer than the title or the description. |
| Queries.Filter | blog_mcp_server.py:592-619 | An entry is kept exactly when it is in the index and accepted. Index order is kept. |
| Queries.AllMatches | blog_mcp_server.py:592-606 | An entry matches exactly when it is a blog entry whose lower-cased title or description contains the query. |
| Queries.FilterAppend | blog_mcp_server.py:592-619 | Filtering distributes over concatenation, so index order is kept. |
| Queries.FilterStep | blog_mcp_server.py:592-619 | Scanning one more entry adds it to the kept entries exactly when it is accepted. |
| Queries.FilterEarlyStop | blog_mcp_server.py:619-622 | The entries kept from a prefix of the index are the first entries kept from the whole index, so stopping early loses nothing before the limit. |
| Queries.FilterTake | blog_mcp_server.py:619-622 | The first `n` kept entries are accepted entries of the index. |
| Queries.SearchEntries | blog_mcp_server.py:592-622 | The early-stopping loop returns exactly the first `limit` matches in index order, each a matching blog entry of the index. |
| Queries.HitOf | blog_mcp_server.py:607-618 | A search hit carries the entry's post record and the entry's incoming and outgoing link lists. |
| Queries.Search | blog_mcp_server.py:583-634 | An empty index gives "no posts in repository". Otherwise the search succeeds exactly when something matches. Hit `i` is match `i`, and there are `min(matches, limit)` of them. |
| Queries.AllPosts | blog_mcp_server.py:378-428 | Fails exactly when there is no blog entry. Otherwise it returns a permutation of the blog posts. |
| Queries.AllPostsOrdered | blog_mcp_server.py:415-422 | The listed posts are newest first, and posts with equal timestamps keep index order. |
| Queries.RecentPosts | blog_mcp_server.py:660-707 | Fails exactly when there is no blog entry. Otherwise it returns the first `min(limit, posts)` posts of the full newest-first listing, all of them blog posts of the index. |
| Queries.DescendingSplit | blog_mcp_server.py:697-707 | In a newest-first list, nothing after the first `n` is newer than anything within them. |
| Queries.RecentPostsAreNewest | blog_mcp_server.py:697-707 | The recent posts are posts of the index, newest first, and no post left out is newer than one listed. |
| Queries.RandomFile | blog_mcp_server.py:352-356 | The pick is one of the files. An empty list is reported instead. |
| Queries.RandomFileReachesAll | blog_mcp_server.py:356 | Every file can be picked. |
| Resolve.CheckUrl | blog_mcp_server.py:446-449 | An argument that is blank once stripped is refused. Otherwise the stripped argument is used. |
| Resolve.MarkdownMatches | blog_mcp_server.py:470-476 | A markdown path matches an argument exactly when it is non-empty and either one ends with the other or both have the same file name. Equality is one of the suffix cases. |
| Resolve.FirstMarkdownMatch | blog_mcp_server.py:465-480 | The first entry whose markdown path matches the argument, with none matching before it. It is absent exactly when no entry matches. |
| Resolve.FullUrlPath | blog_mcp_server.py:458-463 | A URL that starts with the https (or http) blog prefix and carries no further prefix contains the host, and the two replacements leave exactly the rest of the URL. |
| Resolve.HostPath | blog_mcp_server.py:458-465 | A URL without `idvork.in` is refused. One with it yields a non-empty path no longer than the URL. A URL carrying the https or http prefix only at its start yields what follows it, or `/` when nothing does. A URL with the host but neither prefix anywhere is kept whole as the path. |
| Resolve.InputPath | blog_mcp_server.py:457-486 | A full URL is handled as `HostPath` states. A markdown path yields the key of the first entry whose markdown path matches, or "not found" exactly when none matches. Anything else is the argument with a leading `/` added when missing. |
| Resolve.FindFile | blog_mcp_server.py:206-212 | Absent exactly when no file has the path. Otherwise the first file with that path. |
| Resolve.FindInBlogFiles | blog_mcp_server.py:171-212 | Looking a markdown path up among the blog files finds something exactly when it is a blog path that some entry carries. |
| Resolve.FirstBlogEntryIsFirst | blog_mcp_server.py:178-196 | For a blog path, the first blog entry carrying it is the first entry of the whole index carrying it. |
| Resolve.FindFirstInBlogFiles | blog_mcp_server.py:171-212 | What the lookup finds is the file of the first index entry carrying the path. |
| Resolve.FileFor | blog_mcp_server.py:206-212 | A file is found exactly when the markdown path is a blog path that some entry carries. It is the file of the first such entry. |
| Resolve.DirectFile | blog_mcp_server.py:488-495 | A direct hit exists exactly when the path is a key whose markdown path has a blog file, and it is that markdown path's file. |
| Resolve.RedirectsFrom | blog_mcp_server.py:511-512 | A post redirects from a path only when its `redirect_url` is non-empty and is a tail of the path: all of it, or what follows its leading slashes. |
| Resolve.HitHasFile | blog_mcp_server.py:510-517 | An entry is a deprecated-redirect hit exactly when it redirects from the path and its markdown path has a blog file. |
| Resolve.FirstWhere | blog_mcp_server.py:510-518 | The position of the first accepted entry, with none accepted before it. It is absent exactly when no entry is accepted. |
| Resolve.DeprecatedFile | blog_mcp_server.py:508-518 | Absent exactly when no entry that redirects from the path has a file. Otherwise the file of the first entry that redirects from the path and has a file. |
| Resolve.ResolvePath | blog_mcp_server.py:488-525 | A direct hit always wins, and a direct result is the direct hit. Otherwise the one top-level redirect hop is taken when its target has a direct hit, and after that the first deprecated `redirect_url` hit. Each route is taken exactly when the earlier ones fail and it succeeds, and records the path it came from. Nothing is found exactly when every route fails. |
| Resolve.Locate | blog_mcp_server.py:457-525 | Argument errors are reported as they are. Otherwise the result is the resolution of the derived path, and "not found" exactly when there is none. |
| Resolve.CanonicalPathResolvesDirectly | blog_mcp_server.py:484-495 | With unique keys, a post's own URL path resolves directly, to the file of the first entry carrying the post's markdown path. |
| Resolve.RedirectChainNotFollowed | blog_mcp_server.py:497-506 | Redirects are followed one hop only: with `/a -> /b -> /c`, `/a` is not found but `/b` reaches `/c`. |
| Fetch.TruncateContent | blog_mcp_server.py:120-125 | Downloaded text is a prefix of the original of at most 1 000 000 characters. It is unchanged when short enough and exactly that long otherwise. |
| Markdown.HeaderValue | blog_mcp_server.py:249 | Only whitespace and quotes are removed, and only at the two ends, so the value is an infix of the input framed by them. No single quote is left at either end. A value with no quote at either end once stripped is exactly its whitespace-stripped text. A stripped value enclosed in one pair of double quotes, or of single quotes, is exactly what lies between that pair. |
| Markdown.HeaderValueExample | blog_mcp_server.py:249 | `  "Hello"  ` gives `Hello`: the spaces and the double quotes are both removed. |
| Markdown.Unquote | blog_mcp_server.py:249 | The two quote strips drop only quotes, only at the ends. They keep an unquoted value and remove one enclosing pair of either kind. |
| Markdown.HeaderQuotes | blog_mcp_server.py:249 | `strip('"')` then `strip("'")` keeps a value with no quote at either end and removes one enclosing pair of double or of single quotes. |
| Markdown.TitleOfLine | blog_mcp_server.py:241-251 | A line gives a title exactly when, stripped, it starts with `# ` or `title:`. The title is shorter than the stripped line. For `# ` it is the rest of the line with only the surrounding whitespace dropped, and with no whitespace at its own ends. By `Strings.StripUnique` that makes it exactly the stripped heading text. |
| Markdown.DateOfLine | blog_mcp_server.py:253-257 | A line gives a date exactly when, stripped, it starts with `date:`. The date is shorter than the stripped line. |
| Markdown.FirstSome | blog_mcp_server.py:241-257 | The value of the first recognised line, with none recognised before it. It is absent exactly when no line is recognised. |
| Markdown.FirstSomeAt | blog_mcp_server.py:241-257 | The first recognised line decides the result. |
| Markdown.SpacedName | blog_mcp_server.py:261 | Removing `.md` and turning `-` and `_` into spaces never lengthens the name and leaves no `-` or `_`. After the `.md` removal, each character is kept, except that `-` and `_` become a space, so a name without `.md` keeps its length and every other character. A name whose only `.md` is its ending loses exactly those three characters and has its `-` and `_` turned into spaces. |
| Markdown.FilenameTitle | blog_mcp_server.py:259-261 | The title made from a file name is the spaced name title-cased. It has the same letters ignoring case, and no `-` or `_`. A letter at the start or after a non-letter is not lower case, and a letter after a letter is not upper case. No `.` is followed by `m`, and the title is no longer than the name. |
| Markdown.CollapseBlankLines | blog_mcp_server.py:264 | Collapsing blank lines never lengthens the text. |
| Markdown.CollapseLeavesNoBlankLines | blog_mcp_server.py:264 | After the collapse, two line breaks with only whitespace between them are adjacent, so no whitespace-only line and no run of three breaks is left. |
| Markdown.CollapseWithoutNewlines | blog_mcp_server.py:264 | Text without line breaks is left as it is. |
| Markdown.CollapseBlankLineExample | blog_mcp_server.py:264 | A whitespace-only line, or a run of empty lines, becomes one empty line. A single break is kept. |
| Markdown.Excerpt | blog_mcp_server.py:268 | Short content is its own excerpt. Longer content gives its first 200 characters followed by "...". |
| Markdown.ExtensionRemoved | blog_mcp_server.py:261 | Removing `.md` from a name whose only `.md` is its ending drops exactly that ending. |
| Markdown.FilenameTitleExample | blog_mcp_server.py:259-261 | `my-post.md` gives the title `My Post`. |
| Markdown.SpacedExample | blog_mcp_server.py:261 | `my-post.md` gives `my post` before title-casing. |
| Markdown.TitleExample | blog_mcp_server.py:261 | `my post` title-cases to `My Post`. |
| Markdown.ChosenTitle | blog_mcp_server.py:238-261 | The title is either the title-cased file name or what one of the first ten lines gives. |
| Markdown.ParseMarkdownContent | blog_mcp_server.py:228-288 | A failed download gives the error record. Otherwise the text is first cut to 1 000 000 characters. The title comes from the first header among 10 lines, else from the file name, cut to 200 characters. The date comes from the first `date:` among 20 lines. The content is the collapsed, stripped text, at most 1 000 000 characters, with its excerpt. |
| Markdown.HeadingNamesPost | blog_mcp_server.py:241-261 | The first header line within the first ten lines names the post, unless it reads "Untitled". |
| Markdown.NoHeadingUsesFilename | blog_mcp_server.py:241-261 | With no header among the first ten lines, the post is named after its file. |
| Changes.PlanRecentChanges | blog_mcp_server.py:744-782 | Succeeds exactly when the arguments are valid, checking in source order. Commits default to 10 and are capped at 100. `per_page` is the commit count, or 100 by days. The path filter loses one leading `/`. |
| Changes.FirstFailingCheckReported | blog_mcp_server.py:744-758 | An invalid call reports the first failing check in source order. Once the window arguments pass, a path ending in `/` is reported as a directory and any other failing path as not markdown. |
| Changes.DirectoryCheckComesFirst | blog_mcp_server.py:754-758 | A diff of a directory path is refused as a directory even when the path contains `.md`. |
| Tools.BlogSearch | blog_mcp_server.py:557-640 | A blank query is refused before the repository or the cache is touched, and an unknown repository leaves the cache unchanged. Otherwise the cache moves as `get_blog_data` does. The reply carries the clamped limit and the normalised query, and its results number at most that limit and are blog posts. |
| Tools.RecentBlogPosts | blog_mcp_server.py:644-716 | Repository errors leave the cache unchanged. Otherwise the cache moves as `get_blog_data` does, and the reply is the index's recent posts under the limit clamped to `[1, 50]` (default 20). It fails exactly when there is no blog post, and otherwise lists `min(limit, posts)` posts, newest first. |
| Tools.AllBlogPosts | blog_mcp_server.py:371-430 | Repository errors leave the cache unchanged. Otherwise the cache moves as `get_blog_data` does, and the reply is every blog post of the index, newest first. It fails exactly when there is none. |
| Tools.ReadBlogPost | blog_mcp_server.py:439-531 | A blank argument is refused first, then an unknown repository, both leaving the cache unchanged. Otherwise the reply succeeds exactly when resolution succeeds, with the parsed post of the resolved file and the route taken. |
| Tools.RandomBlogUrl | blog_mcp_server.py:535-553 | The reply fails exactly when there is no blog file. Otherwise it is the page URL of some blog entry. |
| Tools.RandomBlog | blog_mcp_server.py:342-368 | The reply fails exactly when there is no blog file. Otherwise it is some blog file's parsed content or its URL, as asked. |
| Tools.RecentChangesRequest | blog_mcp_server.py:744-782 | Argument errors come before repository errors. A success carries the validated repository and the planned request. |
| Strings.Strip | blog_mcp_server.py:92 | Stripping removes whitespace and nothing else, and only at the two ends: the result is an infix of the input with only whitespace around it, and no whitespace at its own ends. |
| Strings.StripIdempotent | blog_mcp_server.py:92 | Stripping twice is stripping once. |
| Strings.FramedUnique | blog_mcp_server.py:92 | Two infixes framed by the same dropped characters are equal when neither starts or ends with such a character. |
| Strings.StripUnique | blog_mcp_server.py:92 | Any infix framed by whitespace with no whitespace at its own ends is the stripped text, so `Strip`'s contract determines its result. |
| Strings.StripChar | blog_mcp_server.py:249 | Stripping one character removes that character and nothing else, only at the ends, and leaves none of it at either end. |
| Strings.StripCharOfTrimmed | blog_mcp_server.py:249 | A text that neither starts nor ends with the character is unchanged by stripping it. |
| Strings.StripCharEnclosed | blog_mcp_server.py:249 | Stripping a character removes one enclosing pair of it from a text with no further copy at either end. |
| Strings.FramedTrans | blog_mcp_server.py:249 | Removing characters of one kind at the ends, twice over, removes them at the ends of the original. |
| Strings.ContainsLength | blog_mcp_server.py:606 | A contained string is no longer than the text, and the empty string is contained in every text. |
| Strings.Lower | blog_mcp_server.py:578 | Lower-casing keeps the length and lower-cases each character on its own. |
| Strings.Title | blog_mcp_server.py:261 | Title-casing keeps the length, the letters ignoring case, and every non-letter. A letter at the start or after a non-letter is not lower case, and a letter after a letter is not upper case. |
| Strings.TitleCaseOwnShape | blog_mcp_server.py:261 | The title-cased text has that shape read on itself, so no `.` in it is followed by `m`. |
| Strings.TitleShape | blog_mcp_server.py:261 | After title-casing, every letter after a letter is lower case, every other letter is upper case, and non-letters are unchanged. |
| Strings.Replace | blog_mcp_server.py:261 | Replacing a pattern that does not occur changes nothing. A text starting with the pattern gives a result starting with the replacement. A replacement no longer than the pattern never lengthens the text, and shortens it by at least the difference when the text starts with the pattern. Every character of the result comes from the text or the replacement. Replacing one character by one character keeps the length, maps every occurrence to the replacement and keeps every other character. |
| Strings.ReplaceFirst | blog_mcp_server.py:261 | For a pattern of any length, the text before its first occurrence is kept, that occurrence becomes the replacement, and the rest of the text is replaced in the same way. |
| Strings.ReplaceKeepsPrefix | blog_mcp_server.py:261 | Text before the first occurrence of the pattern is kept unchanged. |
| Strings.ReplaceAtOccurrence | blog_mcp_server.py:261 | An occurrence at a position is replaced, and scanning resumes right after it. |
| Strings.ReplaceCharRemoves | blog_mcp_server.py:261 | Replacing a character by text without it leaves none of it. |
| Strings.Split | blog_mcp_server.py:235 | Splitting gives at least one part, and no part contains the separator. |
| Strings.JoinSplit | blog_mcp_server.py:235 | Splitting on a character and joining back gives the original text. |
| Strings.LastSegment | blog_mcp_server.py:191 | The last segment is a separator-free suffix, preceded by a separator when shorter than the text. |
| Strings.LastSegmentProps | blog_mcp_server.py:191 | The last part of the split is a suffix of the text, preceded by a separator when it is shorter than the text. |

## Left out

- HTTP, `httpx` and JSON decoding: the result of a download is a parameter, and a decoding error is a failed fetch.
- The GitHub repository listing for a wildcard configuration is a parameter.
- Environment variables are constants (`idvorkin`, `idvorkin.github.io`, `https://idvork.in`) or parameters (the repository configuration).
- Text and JSON rendering of replies (`format_blog_post`, `json.dumps`) and `blog_info`: replies are structured values.
- Fetching and formatting commits, and the `since` date of `get_recent_changes` (lines 784-916): network and clock work past the request it builds.
- Logging, `asyncio` scheduling and concurrency: the source has no locking and no in-flight deduplication, so calls are modelled one after another.
- Metadata values of a non-string JSON type (for example a `null` title, which the source would fail on inside `.lower()`) are not modelled. A missing title is modelled as `None`.
- Index.DistinctKeys: JSON object keys are unique, but the index sequence does not enforce it. Lemmas that need unique keys require them.
- Strings.Lower: models `str.lower()` on ASCII letters only. Other characters are left unchanged, because Unicode case mapping is not modelled.
- Strings.Title: models `str.title()` on ASCII letters only, for the same reason.
- Tools.ReadBlogPost: resolves against one reading of the index. The source reads the index again inside `get_blog_post_by_markdown_path` (lines 206-212). After a first read that was served from the cache, the second read returns the same data within the window (`Cache.RepeatIsCacheHit`). After a first read whose fetch failed, or one that fell back to a stale entry, the second read fetches again and may see a different index. The model does not state what happens then.
- Cache.GetBlogData: a document that decodes to JSON but not to an object is not modelled. The source stores it at line 154 before line 156 fails on it. The call then falls back like a failed fetch, but the stored value stays in the cache for 300 s and every tool reading it fails. The model treats every undecodable or non-object document as a failed fetch that stores nothing.
- Markdown.TitleOfLine: for `title:` lines it does not state the value's text, because `replace` removes every `title:` in the line and not only the leading one. The value is computed exactly as the source does; the contract states only when a title is found and that it is shorter than the line.
- Markdown.HeaderValue and Markdown.Unquote: the value is stated exactly for a stripped value with no quote at either end, and for one enclosed in a single pair of double or of single quotes. For other quote patterns (a quote at one end only, or quotes nested or repeated), the contract states only that whitespace and quotes are dropped at the ends, and that no single quote is left there.
- Markdown.DateOfLine: likewise for `date:`. The contract states when a date is found and that it is shorter than the line, not its text.
- Markdown.Unquote: like `Markdown.HeaderValue`, it states the result exactly only for an unquoted value and for one enclosed in a single pair of quotes. A mixed value such as `"a'"` is stated only to lose quotes at its ends.
- Strings.Replace: its own contract states the exact result only for a one-character pattern. For longer patterns such as `.md`, the result is stated by the lemma `Strings.ReplaceFirst` at the first occurrence, which `Markdown.SpacedName` uses for a name whose only `.md` is its ending. A name with `.md` elsewhere as well is stated only through the general bounds.
- Markdown.ChosenTitle: its own contract states where the title may come from. Which source wins is stated by `Markdown.HeadingNamesPost` and `Markdown.NoHeadingUsesFilename`.
- Resolve.HostPath: for a URL that carries the https or http prefix somewhere other than only at its start (again later on, or only inside it), the contract states only that the path is non-empty and no longer than the URL. The path is computed as the source does, removing every occurrence.
- Tools.BlogSearch: does not state which hits are returned. `Queries.Search` states that hit `i` is match `i`.
- Markdown.CollapseBlankLines: its own contract states only that the text never grows. What the collapse achieves is stated by `Markdown.CollapseLeavesNoBlankLines`, and that other text is kept by `Markdown.CollapseWithoutNewlines` and worked examples. That every character outside a collapsed run is kept is not stated for all inputs.

=== FILE: cache.dfy ===
/** The per-repository cache of parsed metadata (`get_blog_data`). The clock reading and
    the outcome of downloading and parsing `back-links.json` are parameters. */
module Cache {
  import opened Index

  /** `CACHE_DURATION`: an entry younger than this many seconds is served without a fetch. */
  const CacheDuration: real := 300.0

  /** One repository's cached document and the clock reading taken when it was requested. */
  datatype CacheEntry = CacheEntry(data: BlogData, timestamp: real)

  /** `_repo_caches`. */
  type RepoCaches = map<string, CacheEntry>

  /** What downloading and parsing the metadata document produced. */
  datatype FetchOutcome = Fetched(data: BlogData) | FetchFailed

  /** What one `get_blog_data` call returns, the cache it leaves, and whether it asked the
      network for the document. */
  datatype CacheReply = CacheReply(data: BlogData, caches: RepoCaches, fetched: bool)

  /** The entry exists and is younger than `CacheDuration` at time `now`. A present entry
      is a non-empty dict, so the source's truthiness test is just presence. */
  predicate IsFresh(caches: RepoCaches, repo: string, now: real)
    // an entry stays fresh until the cache duration has passed since it was stored
    ensures IsFresh(caches, repo, now) <==> repo in caches && now < caches[repo].timestamp + CacheDuration
  {
    repo in caches && now - caches[repo].timestamp < CacheDuration
  }

  /** `get_blog_data(repo)` at clock reading `now`; `fetch` is consulted only on a miss. */
  function GetBlogData(caches: RepoCaches, repo: string, now: real, fetch: FetchOutcome): (r: CacheReply)
    // a fresh entry is served as it is, and nothing is fetched or stored
    ensures IsFresh(caches, repo, now) ==> !r.fetched && r.data == caches[repo].data && r.caches == caches
    // otherwise the document is fetched
    ensures !IsFresh(caches, repo, now) ==> r.fetched
    // a successful fetch is returned and replaces this repository's entry, stamped `now`
    ensures !IsFresh(caches, repo, now) && fetch.Fetched? ==>
      r.data == fetch.data && repo in r.caches && r.caches[repo] == CacheEntry(fetch.data, now)
    // a failed fetch falls back to the old entry however old it is, else to the empty index
    ensures !IsFresh(caches, repo, now) && fetch.FetchFailed? ==>
      r.caches == caches && r.data == (if repo in caches then caches[repo].data else EmptyData)
    // no other repository's entry is created, dropped or changed
    ensures r.caches.Keys == caches.Keys + {repo} || r.caches.Keys == caches.Keys
    ensures forall other :: other != repo && other in caches ==> other in r.caches && r.caches[other] == caches[other]
  {
    if IsFresh(caches, repo, now) then
      CacheReply(caches[repo].data, caches, false)
    else
      match fetch
      case Fetched(data) => CacheReply(data, caches[repo := CacheEntry(data, now)], true)
      case FetchFailed =>
        CacheReply(if repo in caches then caches[repo].data else EmptyData, caches, true)
  }

  /** Two calls for one repository whose clock readings lie within one cache duration
      fetch at most once, unless the first call's fetch failed: a failure stores nothing,
      so the second call fetches again. */
  lemma {:induction false} AtMostOneFetchPerWindow(
    caches: RepoCaches, repo: string, t1: real, f1: FetchOutcome, t2: real, f2: FetchOutcome)
    requires t1 <= t2 < t1 + CacheDuration
    ensures var r1 := GetBlogData(caches, repo, t1, f1);
      var r2 := GetBlogData(r1.caches, repo, t2, f2);
      r1.fetched && r2.fetched ==> f1.FetchFailed?
  {
    var r1 := GetBlogData(caches, repo, t1, f1);
    if r1.fetched && f1.Fetched? {
      assert r1.caches[repo].timestamp == t1;
      assert IsFresh(r1.caches, repo, t2);
    }
  }

  /** After a call that served or stored an entry, a second call within one cache duration
      of the stored timestamp is answered from the cache with the same data. */
  lemma {:induction false} RepeatIsCacheHit(
    caches: RepoCaches, repo: string, t1: real, f1: FetchOutcome, t2: real, f2: FetchOutcome)
    requires IsFresh(caches, repo, t1) || f1.Fetched?
    requires t1 <= t2
    requires IsFresh(caches, repo, t1) ==> t2 - caches[repo].timestamp < CacheDuration
    requires !IsFresh(caches, repo, t1) ==> t2 < t1 + CacheDuration
    ensures var r1 := GetBlogData(caches, repo, t1, f1);
      GetBlogData(r1.caches, repo, t2, f2) == CacheReply(r1.data, r1.caches, false)
  {
    var r1 := GetBlogData(caches, repo, t1, f1);
    assert IsFresh(r1.caches, repo, t2);
  }

  /** A call of `get_blog_data` for one repository: its clock reading and what a fetch
      would produce at that moment. */
  datatype Call = Call(now: real, fetch: FetchOutcome)

  /** How many of `calls`, made one after another, went to the network, and how many of
      those fetches failed. */
  datatype FetchCount = FetchCount(fetches: nat, failures: nat)

  function Run(caches: RepoCaches, repo: string, calls: seq<Call>): (c: FetchCount)
    ensures c.failures <= c.fetches <= |calls|
    decreases |calls|
  {
    if |calls| == 0 then FetchCount(0, 0)
    else
      var r := GetBlogData(caches, repo, calls[0].now, calls[0].fetch);
      var rest := Run(r.caches, repo, calls[1..]);
      var failed := r.fetched && calls[0].fetch.FetchFailed?;
      FetchCount(rest.fetches + (if r.fetched then 1 else 0), rest.failures + (if failed then 1 else 0))
  }

  /** While an entry stamped at or after `t0` exists, calls made before `t0 + CacheDuration`
      never fetch. */
  lemma {:induction false} NoFetchWhileFresh(caches: RepoCaches, repo: string, calls: seq<Call>, t0: real)
    requires repo in caches && caches[repo].timestamp >= t0
    requires forall i :: 0 <= i < |calls| ==> calls[i].now < t0 + CacheDuration
    ensures Run(caches, repo, calls).fetches == 0
    decreases |calls|
  {
    if |calls| > 0 {
      var r := GetBlogData(caches, repo, calls[0].now, calls[0].fetch);
      assert IsFresh(caches, repo, calls[0].now);
      NoFetchWhileFresh(r.caches, repo, calls[1..], t0);
    }
  }

  /** Calls for one repository made within one cache duration of the first of them fetch
      at most once more than they fail: after the first successful fetch every later call
      in the window is served from the cache. */
  lemma {:induction false} FetchesWithinWindow(caches: RepoCaches, repo: string, calls: seq<Call>, t0: real)
    requires forall i :: 0 <= i < |calls| ==> t0 <= calls[i].now < t0 + CacheDuration
    ensures Run(caches, repo, calls).fetches <= Run(caches, repo, calls).failures + 1
    decreases |calls|
  {
    if |calls| > 0 {
      var r := GetBlogData(caches, repo, calls[0].now, calls[0].fetch);
      if r.fetched && calls[0].fetch.Fetched? {
        NoFetchWhileFresh(r.caches, repo, calls[1..], t0);
      } else {
        FetchesWithinWindow(r.caches, repo, calls[1..], t0);
      }
    }
  }
}

=== FILE: changes.dfy ===
/** The argument checks and defaults of `get_recent_changes`, up to the request it sends to
    GitHub's commits endpoint. Fetching and formatting the commits is not modelled. */
module Changes {
  import opened Wrappers
  import opened Strings
  import opened Errors

  const DefaultCommits: int := 10
  const MaxCommits: int := 100
  /** `per_page` when looking back by days. */
  const PerPageByDays: int := 100

  /** How far back to look: a number of days, or a number of commits. */
  datatype Window = ByDays(days: int) | ByCommits(commits: int)

  /** The commits request: the window, `per_page`, and the `path` filter (without a leading `/`). */
  datatype CommitsRequest = CommitsRequest(window: Window, perPage: int, path: Option<string>)

  /** Python's truthiness of an optional string: present and non-empty. */
  predicate Given(path: Option<string>) {
    path.Some? && path.value != ""
  }

  /** The arguments the tool accepts, stated on their own. */
  predicate ArgumentsValid(path: Option<string>, days: Option<int>, commits: Option<int>, includeDiff: bool) {
    && !(days.Some? && commits.Some?)
    && (days.Some? ==> days.value > 0)
    && (commits.Some? ==> commits.value > 0)
    && (includeDiff && Given(path) ==> !EndsWith(path.value, "/") && EndsWith(path.value, ".md"))
  }

  /** The validation and defaults of `get_recent_changes`, in the order the source checks. */
  function PlanRecentChanges(path: Option<string>, days: Option<int>, commits: Option<int>, includeDiff: bool)
    : (r: Result<CommitsRequest, Failure>)
    ensures r.Ok? <==> ArgumentsValid(path, days, commits, includeDiff)
    ensures days.Some? && commits.Some? ==> r == Err(BothDaysAndCommits)
    ensures r.Ok? ==> 1 <= r.value.perPage <= MaxCommits
    ensures r.Ok? && days.None? && commits.None? ==> r.value.window == ByCommits(DefaultCommits)
    ensures r.Ok? && commits.Some? ==>
      r.value.window == ByCommits(if commits.value > MaxCommits then MaxCommits else commits.value)
    ensures r.Ok? && days.Some? ==> r.value.window == ByDays(days.value) && r.value.perPage == PerPageByDays
    ensures r.Ok? && r.value.window.ByCommits? ==> r.value.perPage == r.value.window.commits
    ensures r.Ok? && r.value.path.Some? ==> Given(path) && r.value.path.value == (if StartsWith(path.value, "/") then path.value[1..] else path.value)
    ensures r.Ok? && !Given(path) ==> r.value.path.None?
  {
    if days.Some? && commits.Some? then Err(BothDaysAndCommits)
    else if days.Some? && days.value <= 0 then Err(DaysNotPositive)
    else if commits.Some? && commits.value <= 0 then Err(CommitsNotPositive)
    else if includeDiff && Given(path) && EndsWith(path.value, "/") then Err(DiffPathIsDirectory)
    else if includeDiff && Given(path) && !EndsWith(path.value, ".md") then Err(DiffPathNotMarkdown)
    else
      var window :=
        if days.Some? then ByDays(days.value)
        else if commits.None? then ByCommits(DefaultCommits)
        else if commits.value > MaxCommits then ByCommits(MaxCommits)
        else ByCommits(commits.value);
      var perPage := if window.ByCommits? then window.commits else PerPageByDays;
      var filter :=
        if !Given(path) then None
        else if StartsWith(path.value, "/") then Some(path.value[1..])
        else Some(path.value);
      Ok(CommitsRequest(window, perPage, filter))
  }

  /** Which check rejects an invalid call: the first one that fails, in source order. */
  lemma FirstFailingCheckReported(path: Option<string>, days: Option<int>, commits: Option<int>, includeDiff: bool)
    requires !ArgumentsValid(path, days, commits, includeDiff)
    ensures var r := PlanRecentChanges(path, days, commits, includeDiff);
      && (days.Some? && commits.Some? ==> r.error == BothDaysAndCommits)
      && (!(days.Some? && commits.Some?) && days.Some? && days.value <= 0 ==> r.error == DaysNotPositive)
      && (days.None? && commits.Some? && commits.value <= 0 ==> r.error == CommitsNotPositive)
      && ((days.Some? ==> days.value > 0) && (commits.Some? ==> commits.value > 0) && !(days.Some? && commits.Some?)
          ==> r.error == DiffPathIsDirectory || r.error == DiffPathNotMarkdown)
      && ((days.Some? ==> days.value > 0) && (commits.Some? ==> commits.value > 0) && !(days.Some? && commits.Some?) && path.Some?
          ==> (EndsWith(path.value, "/") ==> r.error == DiffPathIsDirectory)
              && (!EndsWith(path.value, "/") ==> r.error == DiffPathNotMarkdown))
  {
  }

  /** Asking for a diff of a directory is refused even when it ends in `.md/`. */
  lemma DirectoryCheckComesFirst()
    ensures PlanRecentChanges(Some("_d/x.md/"), None, None, true) == Err(DiffPathIsDirectory)
    ensures PlanRecentChanges(Some("_d/"), None, None, true) == Err(DiffPathIsDirectory)
    ensures PlanRecentChanges(Some("_d/"), None, None, false).Ok?
  {
    assert "_d/x.md/"[|"_d/x.md/"| - 1..] == "/";
    assert EndsWith("_d/x.md/", "/");
    assert "_d/"[|"_d/"| - 1..] == "/";
    assert EndsWith("_d/", "/");
  }
}

=== FILE: errors.dfy ===
/** The failures the server reports to a caller: its `BlogError` exceptions and the
    "Error: ..." / `{"error": ...}` replies its tools return. */
module Errors {

  datatype Failure =
    // validate_repo
    | RepoNotAllowed(repo: string, allowed: seq<string>)
    // read_blog_post
    | EmptyUrl
    | NotFromBlogHost
    | MarkdownPathNotFound(url: string)
    | PostNotFound(url: string)
    // blog_search, recent_blog_posts, all_blog_posts, random_blog_url
    | EmptyQuery
    | NoPostsInRepo(repo: string)
    | NoMatches(query: string)
    // get_recent_changes
    | BothDaysAndCommits
    | DaysNotPositive
    | CommitsNotPositive
    | DiffPathIsDirectory
    | DiffPathNotMarkdown
}

=== FILE: fetch.dfy ===
/** The size guard of `fetch_url`: downloaded text is cut to its first million characters.
    The download itself is not part of the model. */
module Fetch {
  import opened Strings

  const MaxContentLength: nat := 1_000_000

  function TruncateContent(content: string): (r: string)
    ensures |r| <= MaxContentLength
    ensures StartsWith(content, r)
    ensures |content| <= MaxContentLength ==> r == content
    ensures |content| > MaxContentLength ==> |r| == MaxContentLength
  {
    if |content| > MaxContentLength then content[..MaxContentLength] else content
  }
}

=== FILE: index.dfy ===
/** The metadata index read from a repository's `back-links.json`, and the filter that
    picks out blog posts (`get_blog_files` and the loops of the query tools). */
module Index {
  import opened Wrappers
  import opened Strings

  /** `GITHUB_REPO_OWNER` and `BLOG_URL` at their default values. */
  const GithubOwner: string := "idvorkin"
  const BlogUrl: string := "https://idvork.in"

  /** One value of `url_info`. A field missing from the JSON object holds the default the
      server reads it with (`""`, `0` or `[]`); only `title` keeps its absence, because
      the callers disagree on its default ("Untitled" for listings, "" for matching). */
  datatype PostInfo = PostInfo(
    title: Option<string>,
    description: string,
    lastModified: string,
    docSize: int,
    markdownPath: string,
    filePath: string,
    redirectUrl: string,
    incomingLinks: seq<string>,
    outgoingLinks: seq<string>)

  /** A `url_info` item: the post's URL path and its metadata. */
  type Entry = (string, PostInfo)

  /** `url_info` in the order the JSON document lists it, which is the order Python's
      `dict` iterates in. */
  type UrlInfo = seq<Entry>

  /** The parsed document: `url_info` and the top-level `redirects` table. */
  datatype BlogData = BlogData(urlInfo: UrlInfo, redirects: map<string, string>)

  /** What the server uses when a repository has no readable metadata:
      `{"url_info": {}, "redirects": {}}`. */
  const EmptyData := BlogData([], map[])

  /** A JSON object has each key once. */
  ghost predicate DistinctKeys(u: UrlInfo) {
    forall i, j :: 0 <= i < j < |u| ==> u[i].0 != u[j].0
  }

  /** `url_info.get(key)`. */
  function Lookup(u: UrlInfo, key: string): (r: Option<PostInfo>)
    ensures r.None? <==> forall i :: 0 <= i < |u| ==> u[i].0 != key
    ensures r.Some? ==> exists i :: 0 <= i < |u| && u[i] == (key, r.value)
    ensures DistinctKeys(u) ==> forall i :: 0 <= i < |u| && u[i].0 == key ==> r == Some(u[i].1)
  {
    if |u| == 0 then None
    else if u[0].0 == key then Some(u[0].1)
    else
      var r := Lookup(u[1..], key);
      assert forall i :: 0 <= i < |u| - 1 ==> u[1..][i] == u[i + 1];
      r
  }

  /** A markdown path the server treats as a blog post: non-empty and under `_d/`,
      `_posts/` or `td/`. */
  predicate IsBlogPath(markdownPath: string)
    // the emptiness test is subsumed by the prefix tests
    ensures IsBlogPath(markdownPath) <==>
      StartsWith(markdownPath, "_d/") || StartsWith(markdownPath, "_posts/") || StartsWith(markdownPath, "td/")
  {
    && markdownPath != ""
    && (StartsWith(markdownPath, "_d/") || StartsWith(markdownPath, "_posts/") || StartsWith(markdownPath, "td/"))
  }

  /** The entries of `url_info` whose markdown path is a blog path, in their original order. */
  function BlogEntries(u: UrlInfo): (r: UrlInfo)
    ensures |r| <= |u|
    ensures forall e :: e in r <==> e in u && IsBlogPath(e.1.markdownPath)
  {
    if |u| == 0 then []
    else if IsBlogPath(u[0].1.markdownPath) then [u[0]] + BlogEntries(u[1..])
    else BlogEntries(u[1..])
  }

  /** The filter commutes with concatenation: it keeps the entries' relative order. */
  lemma {:induction false} BlogEntriesAppend(a: UrlInfo, b: UrlInfo)
    ensures BlogEntries(a + b) == BlogEntries(a) + BlogEntries(b)
    decreases |a|
  {
    if |a| > 0 {
      assert (a + b)[0] == a[0];
      assert (a + b)[1..] == a[1..] + b;
      BlogEntriesAppend(a[1..], b);
      if IsBlogPath(a[0].1.markdownPath) {
        assert BlogEntries(a + b) == [a[0]] + (BlogEntries(a[1..]) + BlogEntries(b));
      } else {
        assert BlogEntries(a + b) == BlogEntries(a[1..]) + BlogEntries(b);
      }
    } else {
      assert a + b == b;
    }
  }

  /** Filtering twice is filtering once. */
  lemma {:induction false} BlogEntriesIdempotent(u: UrlInfo)
    ensures BlogEntries(BlogEntries(u)) == BlogEntries(u)
    decreases |u|
  {
    if |u| > 0 {
      BlogEntriesIdempotent(u[1..]);
      if IsBlogPath(u[0].1.markdownPath) {
        assert ([u[0]] + BlogEntries(u[1..]))[1..] == BlogEntries(u[1..]);
      }
    }
  }

  /** One item of `get_blog_files`. */
  datatype BlogFile = BlogFile(name: string, path: string, downloadUrl: string, htmlUrl: string)

  /** The raw-content URL the server downloads a post from (branch `master`). */
  function DownloadUrl(repo: string, markdownPath: string): string {
    "https://raw.githubusercontent.com/" + GithubOwner + "/" + repo + "/master/" + markdownPath
  }

  /** The file record of one index entry. Its name is the text after the path's last `/`:
      a suffix of the path with no `/`, preceded by a `/` whenever it is shorter than the
      path, so a path without `/` is its own name. */
  function FileOf(repo: string, e: Entry): (f: BlogFile)
    ensures f.path == e.1.markdownPath
    ensures f.htmlUrl == BlogUrl + e.0
    ensures f.downloadUrl == "https://raw.githubusercontent.com/" + GithubOwner + "/" + repo + "/master/" + e.1.markdownPath
    ensures EndsWith(e.1.markdownPath, f.name) && forall k :: 0 <= k < |f.name| ==> f.name[k] != '/'
    ensures |f.name| < |e.1.markdownPath| ==> e.1.markdownPath[|e.1.markdownPath| - |f.name| - 1] == '/'
    ensures (forall k :: 0 <= k < |e.1.markdownPath| ==> e.1.markdownPath[k] != '/') ==> f.name == e.1.markdownPath
  {
    // The source takes the last `/`-separated segment when there is a `/` and the whole
    // path otherwise, which is the last segment in both cases.
    BlogFile(LastSegment(e.1.markdownPath, '/'), e.1.markdownPath,
             DownloadUrl(repo, e.1.markdownPath), BlogUrl + e.0)
  }

  /** `get_blog_files(repo)` over an index: one file per blog entry, in index order. */
  function BlogFiles(repo: string, u: UrlInfo): (r: seq<BlogFile>)
    ensures |r| == |BlogEntries(u)|
    ensures forall i :: 0 <= i < |r| ==> IsBlogPath(r[i].path)
    ensures forall i :: 0 <= i < |r| ==> r[i] == FileOf(repo, BlogEntries(u)[i])
  {
    var es := BlogEntries(u);
    seq(|es|, i requires 0 <= i < |es| => FileOf(repo, es[i]))
  }

  /** Every blog entry of the index has a file, and every file comes from a blog entry. */
  lemma BlogFilesComplete(repo: string, u: UrlInfo)
    ensures forall e :: e in u && IsBlogPath(e.1.markdownPath) ==> FileOf(repo, e) in BlogFiles(repo, u)
    ensures forall f :: f in BlogFiles(repo, u) ==>
      exists e :: e in u && IsBlogPath(e.1.markdownPath) && f == FileOf(repo, e)
  {
    var fs := BlogFiles(repo, u);
    var es := BlogEntries(u);
    forall e | e in u && IsBlogPath(e.1.markdownPath)
      ensures FileOf(repo, e) in fs
    {
      var i :| 0 <= i < |es| && es[i] == e;
      assert fs[i] == FileOf(repo, e);
    }
    forall f | f in fs
      ensures exists e :: e in u && IsBlogPath(e.1.markdownPath) && f == FileOf(repo, e)
    {
      var i :| 0 <= i < |fs| && fs[i] == f;
      assert es[i] in es;
    }
  }

  /** A post as the listing tools report it. */
  datatype Post = Post(
    title: string,
    url: string,
    description: string,
    lastModified: string,
    docSize: int,
    markdownPath: string,
    filePath: string,
    redirectUrl: string)

  function PostOf(e: Entry): (p: Post)
    ensures p.url == BlogUrl + e.0
    ensures p.markdownPath == e.1.markdownPath && p.lastModified == e.1.lastModified
    ensures e.1.title.None? ==> p.title == "Untitled"
    ensures e.1.title.Some? ==> p.title == e.1.title.value
    ensures p.description == e.1.description && p.docSize == e.1.docSize
    ensures p.filePath == e.1.filePath && p.redirectUrl == e.1.redirectUrl
  {
    var info := e.1;
    Post(info.title.GetOr("Untitled"), BlogUrl + e.0, info.description, info.lastModified,
         info.docSize, info.markdownPath, info.filePath, info.redirectUrl)
  }

  function PostsOf(es: UrlInfo): (r: seq<Post>)
    ensures |r| == |es|
    ensures forall i :: 0 <= i < |es| ==> r[i] == PostOf(es[i])
  {
    seq(|es|, i requires 0 <= i < |es| => PostOf(es[i]))
  }
}

=== FILE: markdown.dfy ===
/** `parse_markdown_content`: the title, date, cleaned text and excerpt the server derives
    from a downloaded markdown file. The download is a parameter. */
module Markdown {
  import opened Wrappers
  import opened Strings
  import opened Index
  import opened Fetch

  const TitleMaxLength: nat := 200
  const ExcerptLength: nat := 200
  /** How many leading lines are searched for a title, and for a date. */
  const TitleScanLines: nat := 10
  const DateScanLines: nat := 20
  /** The title placeholder; a post still carrying it after the scan is named after its file. */
  const Untitled: string := "Untitled"
  const ErrorTitle: string := "Error loading post"

  /** What a header value may lose at either end: whitespace and both kinds of quote. */
  predicate IsHeaderJunk(c: char) {
    IsSpace(c) || c == '"' || c == '\''
  }

  /** Neither end of `s` is a quote of either kind. */
  predicate Unquoted(s: string) {
    s == [] || (s[0] != '"' && s[0] != '\'' && s[|s| - 1] != '"' && s[|s| - 1] != '\'')
  }

  /** When `t` is enclosed in one pair of `c`s with no further quote at either end inside,
      `r` is what lies between the pair. */
  predicate LosesEnclosingPair(t: string, r: string, c: char) {
    |t| >= 2 && t[0] == c && t[|t| - 1] == c && Unquoted(t[1..|t| - 1]) ==> r == t[1..|t| - 1]
  }

  /** A header value with surrounding whitespace and quotes removed:
      `.strip().strip('"').strip("'")`. Only whitespace and quotes are dropped, only at the
      ends, and no single quote is left at either end. A value with no quote at either end
      is just stripped of whitespace; a stripped value enclosed in one pair of double or of
      single quotes loses that pair. */
  function HeaderValue(s: string): (r: string)
    ensures |r| <= |s|
    ensures exists i: nat :: FramedBy(r, s, i, IsHeaderJunk)
    ensures r == [] || (r[0] != '\'' && r[|r| - 1] != '\'')
    ensures Unquoted(Strip(s)) ==> r == Strip(s)
    ensures LosesEnclosingPair(Strip(s), r, '"')
    ensures LosesEnclosingPair(Strip(s), r, '\'')
  {
    var t := Strip(s);
    var r := Unquote(t);
    HeaderFramed(s, t, r);
    r
  }

  /** Dropping whitespace and then quotes at the ends drops only header junk at the ends. */
  lemma HeaderFramed(s: string, t: string, r: string)
    requires exists i: nat :: FramedBy(t, s, i, IsSpace)
    requires exists i: nat :: FramedBy(r, t, i, IsHeaderJunk)
    ensures exists i: nat :: FramedBy(r, s, i, IsHeaderJunk)
  {
    FramedWeaken(t, s, IsSpace, IsHeaderJunk);
    FramedTrans(r, t, s, IsHeaderJunk);
  }

  /** `.strip('"').strip("'")` of an already-stripped value: only quotes are dropped, only at
      the ends; an unquoted value is kept and one enclosing pair of quotes is removed. */
  function Unquote(t: string): (r: string)
    ensures |r| <= |t|
    ensures exists i: nat :: FramedBy(r, t, i, IsHeaderJunk)
    ensures r == [] || (r[0] != '\'' && r[|r| - 1] != '\'')
    ensures Unquoted(t) ==> r == t
    ensures LosesEnclosingPair(t, r, '"')
    ensures LosesEnclosingPair(t, r, '\'')
  {
    QuotesFramed(t);
    HeaderQuotes(t);
    StripChar(StripChar(t, '"'), '\'')
  }

  /** The two quote strips drop only quotes, and only at the ends. */
  lemma QuotesFramed(t: string)
    ensures exists i: nat :: FramedBy(StripChar(StripChar(t, '"'), '\''), t, i, IsHeaderJunk)
  {
    var b := StripChar(t, '"');
    StripCharFramed(t, '"', IsHeaderJunk);
    StripCharFramed(b, '\'', IsHeaderJunk);
    FramedTrans(StripChar(b, '\''), b, t, IsHeaderJunk);
  }

  /** A quoted header value loses its spaces and its quotes. */
  lemma HeaderValueExample()
    ensures HeaderValue("  \"Hello\"  ") == "Hello"
  {
    var s, t := "  \"Hello\"  ", "\"Hello\"";
    assert FramedBy(t, s, 2, IsSpace) by {
      assert s[2..2 + |t|] == t;
    }
    StripUnique(t, s, 2);
    QuotedHello();
  }

  /** The quoted literal of `HeaderValueExample` is one enclosed pair around `Hello`. */
  lemma QuotedHello()
    ensures var t := "\"Hello\"";
      |t| >= 2 && t[0] == '"' && t[|t| - 1] == '"' && Unquoted(t[1..|t| - 1]) && t[1..|t| - 1] == "Hello"
  {
  }

  /** How the two quote strips act on an unquoted value and on a quoted one. */
  lemma HeaderQuotes(t: string)
    ensures Unquoted(t) ==> StripChar(StripChar(t, '"'), '\'') == t
    ensures LosesEnclosingPair(t, StripChar(StripChar(t, '"'), '\''), '"')
    ensures LosesEnclosingPair(t, StripChar(StripChar(t, '"'), '\''), '\'')
  {
    if Unquoted(t) {
      StripCharOfTrimmed(t, '"');
      StripCharOfTrimmed(t, '\'');
    }
    if |t| >= 2 && Unquoted(t[1..|t| - 1]) {
      var inner := t[1..|t| - 1];
      if t[0] == '"' && t[|t| - 1] == '"' {
        assert t == ['"'] + inner + ['"'];
        StripCharEnclosed(inner, '"');
        StripCharOfTrimmed(inner, '\'');
      }
      if t[0] == '\'' && t[|t| - 1] == '\'' {
        assert t == ['\''] + inner + ['\''];
        StripCharOfTrimmed(t, '"');
        StripCharEnclosed(inner, '\'');
      }
    }
  }

  /** The title a line announces: `# Title` (a level-one heading) or `title: Title`. A title
      is found exactly when the stripped line starts with one of the two markers, and it is
      strictly shorter than the stripped line; a heading's title is the heading text with
      its surrounding whitespace removed. */
  function TitleOfLine(line: string): (r: Option<string>)
    ensures r.Some? <==> StartsWith(Strip(line), "# ") || StartsWith(Strip(line), "title:")
    ensures r.Some? ==> |r.value| < |Strip(line)|
    ensures StartsWith(Strip(line), "# ") ==> exists i: nat :: FramedBy(r.value, Strip(line)[2..], i, IsSpace)
    ensures StartsWith(Strip(line), "# ") ==> r.value == [] || (!IsSpace(r.value[0]) && !IsSpace(r.value[|r.value| - 1]))
  {
    var l := Strip(line);
    if StartsWith(l, "# ") then Some(Strip(l[2..]))
    else if StartsWith(l, "title:") then Some(HeaderValue(Replace(l, "title:", "")))
    else None
  }

  /** The date a line announces: `date: ...`. A date is found exactly when the stripped line
      starts with the marker, and it is strictly shorter than the stripped line. */
  function DateOfLine(line: string): (r: Option<string>)
    ensures r.Some? <==> StartsWith(Strip(line), "date:")
    ensures r.Some? ==> |r.value| < |Strip(line)|
  {
    var l := Strip(line);
    if StartsWith(l, "date:") then Some(HeaderValue(Replace(l, "date:", ""))) else None
  }

  /** The value `f` gives for the first line it recognises. */
  function FirstSome(lines: seq<string>, f: string -> Option<string>): (r: Option<string>)
    ensures r.None? <==> forall i :: 0 <= i < |lines| ==> f(lines[i]).None?
    ensures r.Some? ==> exists i :: 0 <= i < |lines| && f(lines[i]) == r && forall j :: 0 <= j < i ==> f(lines[j]).None?
    decreases |lines|
  {
    if |lines| == 0 then None
    else if f(lines[0]).Some? then f(lines[0])
    else
      var r := FirstSome(lines[1..], f);
      assert forall i :: 0 < i < |lines| ==> lines[1..][i - 1] == lines[i];
      r
  }

  /** The name `.replace(".md", "").replace("-", " ").replace("_", " ")` makes of a file name. */
  function SpacedName(name: string): (r: string)
    ensures |r| <= |name|
    ensures forall k :: 0 <= k < |r| ==> r[k] != '-' && r[k] != '_'
    ensures var base := Replace(name, ".md", "");
      |r| == |base| && forall k :: 0 <= k < |r| ==> r[k] == (if base[k] == '-' || base[k] == '_' then ' ' else base[k])
    ensures !Contains(name, ".md") ==>
      |r| == |name| && forall k :: 0 <= k < |name| ==> r[k] == (if name[k] == '-' || name[k] == '_' then ' ' else name[k])
    ensures |name| >= 3 && FirstOccurrenceAt(name, ".md", |name| - 3) ==>
      |r| == |name| - 3 && forall k :: 0 <= k < |r| ==> r[k] == (if name[k] == '-' || name[k] == '_' then ' ' else name[k])
  {
    ExtensionRemoved(name);
    var base := Replace(name, ".md", "");
    var dashless := Replace(base, "-", " ");
    ReplaceCharRemoves(base, '-', " ");
    ReplaceCharRemoves(dashless, '_', " ");
    assert '-' !in dashless;
    assert '-' !in Replace(dashless, "_", " ");
    Replace(dashless, "_", " ")
  }

  /** A name whose only `.md` is its ending loses exactly that ending. */
  lemma ExtensionRemoved(name: string)
    ensures |name| >= 3 && FirstOccurrenceAt(name, ".md", |name| - 3) ==> Replace(name, ".md", "") == name[..|name| - 3]
  {
    if |name| >= 3 && FirstOccurrenceAt(name, ".md", |name| - 3) {
      ReplaceFirst(name, ".md", "", |name| - 3);
      assert name[|name| - 3 + 3..] == [];
      assert !Contains([], ".md");
    }
  }

  /** `my-post.md` is titled `My Post`: the extension is dropped, not title-cased. */
  lemma FilenameTitleExample()
    ensures FilenameTitle("my-post.md") == "My Post"
  {
    SpacedExample();
    TitleExample();
  }

  /** `my-post.md` loses its extension and its dash. */
  lemma SpacedExample()
    ensures SpacedName("my-post.md") == "my post"
  {
    ExampleOccurrence();
    SpacedOfExample("my-post.md", SpacedName("my-post.md"));
  }

  /** Reads the example's spaced name off `SpacedName`'s contract. */
  lemma SpacedOfExample(name: string, r: string)
    requires |name| >= 3 && FirstOccurrenceAt(name, ".md", |name| - 3)
    requires |r| == |name| - 3 && forall k :: 0 <= k < |r| ==> r[k] == (if name[k] == '-' || name[k] == '_' then ' ' else name[k])
    requires name == "my-post.md"
    ensures r == "my post"
  {
    assert forall k :: 0 <= k < 7 ==> r[k] == "my post"[k];
  }

  /** The only `.md` in `my-post.md` is its ending. */
  lemma ExampleOccurrence()
    ensures FirstOccurrenceAt("my-post.md", ".md", 7)
  {
    var name := "my-post.md";
    assert name[7..10] == ".md";
    forall j | 0 <= j < 7
      ensures !InfixAt(".md", name, j)
    {
      assert name[j] != ".md"[0];
      InfixAtHead(".md", name, j);
    }
  }

  /** `my post` title-cases to `My Post`. */
  lemma TitleExample()
    ensures Title("my post") == "My Post"
  {
    var s := "my post";
    assert TitleFrom(s[7..], IsLetter(s[6])) == "";
    assert TitleFrom(s[6..], IsLetter(s[5])) == "t";
    assert TitleFrom(s[5..], IsLetter(s[4])) == "st";
    assert TitleFrom(s[4..], IsLetter(s[3])) == "ost";
    assert TitleFrom(s[3..], IsLetter(s[2])) == "Post";
    assert TitleFrom(s[2..], IsLetter(s[1])) == " Post";
    assert TitleFrom(s[1..], IsLetter(s[0])) == "y Post";
  }

  /** The title made from a file name: `.md` removed, `-` and `_` turned into spaces, then
      title-cased. Apart from letter case it is that spaced name; every letter that starts
      it or follows a non-letter is not lower-case, and every letter that follows a letter
      is not upper-case, so a dot is never followed by a lower-case `m`. */
  function FilenameTitle(name: string): (r: string)
    ensures |r| <= |name|
    ensures forall k :: 0 <= k < |r| ==> r[k] != '-' && r[k] != '_'
    ensures Lower(r) == Lower(SpacedName(name))
    ensures forall k :: 0 <= k < |r| && (k == 0 || !IsLetter(r[k - 1])) ==> !IsLower(r[k])
    ensures forall k :: 0 < k < |r| && IsLetter(r[k - 1]) ==> !IsUpper(r[k])
    ensures forall k :: 0 <= k < |r| - 1 && r[k] == '.' ==> r[k + 1] != 'm'
  {
    TitleCaseOwnShape(SpacedName(name));
    Title(SpacedName(name))
  }

  // ---------------------------------------------------------------------------
  // re.sub(r"\n\s*\n", "\n\n", content)

  /** The end of the whitespace run starting at `i`. */
  function SpaceRunEnd(s: string, i: nat): (j: nat)
    requires i <= |s|
    ensures i <= j <= |s|
    ensures forall k :: i <= k < j ==> IsSpace(s[k])
    ensures j == |s| || !IsSpace(s[j])
    decreases |s| - i
  {
    if i < |s| && IsSpace(s[i]) then SpaceRunEnd(s, i + 1) else i
  }

  /** The last line break in `s[i..j]`. */
  function LastNewline(s: string, i: nat, j: nat): (r: Option<nat>)
    requires i <= j <= |s|
    ensures r.Some? ==> i <= r.value < j && s[r.value] == '\n'
    ensures r.Some? ==> forall k :: r.value < k < j ==> s[k] != '\n'
    ensures r.None? ==> forall k :: i <= k < j ==> s[k] != '\n'
    decreases j - i
  {
    if j == i then None
    else if s[j - 1] == '\n' then Some(j - 1)
    else LastNewline(s, i, j - 1)
  }

  /** Every line break followed by whitespace that holds another line break is replaced,
      through the last such break, by exactly two line breaks; the regular expression's
      greedy `\s*` is what makes the match reach the last break of the run. */
  function CollapseBlankLines(s: string): (r: string)
    ensures |r| <= |s|
    decreases |s|
  {
    if |s| == 0 then ""
    else if s[0] == '\n' then
      match LastNewline(s, 1, SpaceRunEnd(s, 1))
      case Some(k) => "\n\n" + CollapseBlankLines(s[k + 1..])
      case None => [s[0]] + CollapseBlankLines(s[1..])
    else [s[0]] + CollapseBlankLines(s[1..])
  }

  /** Text without line breaks passes through unchanged. */
  lemma {:induction false} CollapseWithoutNewlines(s: string)
    requires forall k :: 0 <= k < |s| ==> s[k] != '\n'
    ensures CollapseBlankLines(s) == s
    decreases |s|
  {
    if |s| > 0 {
      CollapseWithoutNewlines(s[1..]);
      assert [s[0]] + s[1..] == s;
    }
  }

  /** `t[a..b]` is whitespace only. */
  predicate AllSpace(t: string, a: nat, b: nat)
    requires a <= b <= |t|
  {
    forall k :: a <= k < b ==> IsSpace(t[k])
  }

  /** The whitespace `t` starts with holds no line break. */
  predicate LeadHasNoNewline(t: string) {
    forall k :: 0 <= k < SpaceRunEnd(t, 0) ==> t[k] != '\n'
  }

  /** No blank line survives: two line breaks with only whitespace between them are adjacent,
      so there is neither a whitespace-only line nor a run of three breaks. */
  predicate NoBlankGaps(r: string) {
    forall i, j :: 0 <= i < j < |r| && r[i] == '\n' && r[j] == '\n' && AllSpace(r, i + 1, j) ==> j == i + 1
  }

  /** In a string whose leading whitespace has no line break, every line break is preceded
      by something that is not whitespace. */
  lemma {:induction false} LeadingBreakNeedsText(t: string, n: nat)
    requires LeadHasNoNewline(t) && n < |t| && t[n] == '\n'
    ensures !AllSpace(t, 0, n)
  {
    var e := SpaceRunEnd(t, 0);
    // t[n] is a line break, so it lies beyond the leading run; being whitespace itself,
    // it does not end that run, so something before it does
    assert e <= n;
    assert e < n;
    assert !IsSpace(t[e]);
  }

  /** Prefixing a character that is not a line break keeps a string free of blank lines. */
  lemma {:induction false} NoBlankGapsCons(c: char, t: string)
    requires c != '\n' && NoBlankGaps(t)
    ensures NoBlankGaps([c] + t)
  {
    var r := [c] + t;
    forall i, j | 0 <= i < j < |r| && r[i] == '\n' && r[j] == '\n' && AllSpace(r, i + 1, j)
      ensures j == i + 1
    {
      assert i > 0;
      assert r[i] == t[i - 1] && r[j] == t[j - 1];
      assert forall k :: i <= k < j - 1 ==> t[k] == r[k + 1];
      assert AllSpace(t, i, j - 1);
    }
  }

  /** Prefixing line breaks (one or two) to a string whose leading whitespace has none keeps
      it free of blank lines. */
  lemma {:induction false} NoBlankGapsBreaks(p: string, t: string)
    requires p == "\n" || p == "\n\n"
    requires NoBlankGaps(t) && LeadHasNoNewline(t)
    ensures NoBlankGaps(p + t)
  {
    var r := p + t;
    forall i, j | 0 <= i < j < |r| && r[i] == '\n' && r[j] == '\n' && AllSpace(r, i + 1, j)
      ensures j == i + 1
    {
      BreaksPair(p, t, i, j);
    }
  }

  /** One pair of line breaks of `p + t` in the situation of `NoBlankGapsBreaks`. */
  lemma BreaksPair(p: string, t: string, i: nat, j: nat)
    requires p == "\n" || p == "\n\n"
    requires NoBlankGaps(t) && LeadHasNoNewline(t)
    requires i < j < |p + t| && (p + t)[i] == '\n' && (p + t)[j] == '\n' && AllSpace(p + t, i + 1, j)
    ensures j == i + 1
  {
    var r := p + t;
    var n := |p|;
    assert forall k :: n <= k < |r| ==> r[k] == t[k - n];
    if i >= n {
      assert forall k :: i - n < k < j - n ==> t[k] == r[k + n];
      assert AllSpace(t, i - n + 1, j - n);
    } else if j >= n {
      assert forall k :: 0 <= k < j - n ==> t[k] == r[k + n];
      assert AllSpace(t, 0, j - n);
      LeadingBreakNeedsText(t, j - n);
    }
  }

  /** The whitespace after a line break, up to the last line break of the run, holds no
      further line break beyond it. */
  lemma {:induction false} RestAfterRun(s: string, k: nat, e: nat)
    requires 1 <= |s| && k < e <= |s| && e == SpaceRunEnd(s, 1)
    requires forall m :: k < m < e ==> s[m] != '\n'
    ensures LeadHasNoNewline(s[k + 1..])
  {
    var t := s[k + 1..];
    var f := SpaceRunEnd(t, 0);
    forall m | 0 <= m < f
      ensures t[m] != '\n'
    {
      // the run of `t` stops no later than the run of `s` does
      if e < |s| {
        assert !IsSpace(t[e - k - 1]);
      }
      assert k + 1 + m < e;
    }
  }

  /** After the collapse no blank line is left, and text whose leading whitespace has no
      line break keeps that shape. */
  lemma {:induction false} CollapseLeavesNoBlankLines(s: string)
    ensures NoBlankGaps(CollapseBlankLines(s))
    ensures LeadHasNoNewline(s) ==> LeadHasNoNewline(CollapseBlankLines(s))
    decreases |s|
  {
    if |s| > 0 {
      var r := CollapseBlankLines(s);
      if s[0] == '\n' {
        var e := SpaceRunEnd(s, 1);
        match LastNewline(s, 1, e)
        case Some(k) =>
          CollapseLeavesNoBlankLines(s[k + 1..]);
          RestAfterRun(s, k, e);
          NoBlankGapsBreaks("\n\n", CollapseBlankLines(s[k + 1..]));
        case None =>
          CollapseLeavesNoBlankLines(s[1..]);
          RestAfterRun(s, 0, e);
          assert s[1..] == s[0 + 1..];
          NoBlankGapsBreaks("\n", CollapseBlankLines(s[1..]));
      } else {
        var t := CollapseBlankLines(s[1..]);
        CollapseLeavesNoBlankLines(s[1..]);
        NoBlankGapsCons(s[0], t);
        if LeadHasNoNewline(s) && IsSpace(s[0]) {
          assert forall m :: 0 <= m < SpaceRunEnd(s[1..], 0) ==> s[1..][m] == s[m + 1];
          assert SpaceRunEnd(s, 0) == 1 + SpaceRunEnd(s[1..], 0) by {
            SpaceRunShift(s);
          }
          assert SpaceRunEnd(r, 0) == 1 + SpaceRunEnd(t, 0) by {
            SpaceRunShift(r);
            assert r[1..] == t;
          }
        }
      }
    }
  }

  /** A whitespace character in front extends the leading run by one. */
  lemma {:induction false} SpaceRunShift(s: string)
    requires |s| > 0 && IsSpace(s[0])
    ensures SpaceRunEnd(s, 0) == 1 + SpaceRunEnd(s[1..], 0)
  {
    SpaceRunFrom(s, 1);
  }

  /** The run from `i` in `s` is the run from 0 in `s[i..]`, shifted. */
  lemma {:induction false} SpaceRunFrom(s: string, i: nat)
    requires i <= |s|
    ensures SpaceRunEnd(s, i) == i + SpaceRunEnd(s[i..], 0)
    decreases |s| - i
  {
    if i < |s| && IsSpace(s[i]) {
      SpaceRunFrom(s, i + 1);
      assert s[i..][1..] == s[i + 1..];
      SpaceRunFromShift(s[i..]);
    }
  }

  lemma {:induction false} SpaceRunFromShift(t: string)
    requires |t| > 0 && IsSpace(t[0])
    ensures SpaceRunEnd(t, 1) == 1 + SpaceRunEnd(t[1..], 0)
    decreases |t|
  {
    SpaceRunSuffix(t, 1, 1);
  }

  /** Running from `i` in `s` equals running from `i - d` in `s[d..]`, shifted by `d`. */
  lemma {:induction false} SpaceRunSuffix(s: string, d: nat, i: nat)
    requires d <= i <= |s|
    ensures SpaceRunEnd(s, i) == d + SpaceRunEnd(s[d..], i - d)
    decreases |s| - i
  {
    if i < |s| && IsSpace(s[i]) {
      SpaceRunSuffix(s, d, i + 1);
      assert s[d..][i - d] == s[i];
    } else if i < |s| {
      assert s[d..][i - d] == s[i];
    }
  }

  /** A blank line (two breaks with only whitespace between them) collapses to an empty line. */
  lemma CollapseBlankLineExample()
    ensures CollapseBlankLines("a\n \t\nb") == "a\n\nb"
    ensures CollapseBlankLines("a\n\n\n\nb") == "a\n\nb"
    ensures CollapseBlankLines("a\nb") == "a\nb"
  {
    var s := "a\n \t\nb";
    assert s[1..] == "\n \t\nb";
    assert SpaceRunEnd("\n \t\nb", 1) == 4;
    assert LastNewline("\n \t\nb", 1, 4) == Some(3);
    assert "\n \t\nb"[4..] == "b";
    var t := "a\n\n\n\nb";
    assert t[1..] == "\n\n\n\nb";
    assert SpaceRunEnd("\n\n\n\nb", 1) == 4;
    assert LastNewline("\n\n\n\nb", 1, 4) == Some(3);
    assert "\n\n\n\nb"[4..] == "b";
    assert "a\nb"[1..] == "\nb";
    assert SpaceRunEnd("\nb", 1) == 1;
    assert "\nb"[1..] == "b";
  }

  // ---------------------------------------------------------------------------
  // the parsed post

  /** The excerpt: the whole text when it is short, else its first 200 characters and "...". */
  function Excerpt(content: string): (r: string)
    ensures |content| <= ExcerptLength ==> r == content
    ensures |content| > ExcerptLength ==> |r| == ExcerptLength + 3 && StartsWith(r, content[..ExcerptLength]) && EndsWith(r, "...")
  {
    if |content| > ExcerptLength then content[..ExcerptLength] + "..." else content
  }

  /** The text of a post file as downloaded, or the message of the error that stopped it. */
  datatype Download = Downloaded(text: string) | DownloadFailed(message: string)

  datatype ParsedPost = ParsedPost(
    title: string,
    url: string,
    content: string,
    excerpt: string,
    date: Option<string>,
    filename: string)

  /** The title before truncation: the first header among the first ten lines, unless there
      is none or it reads "Untitled", in which case the file name. */
  function ChosenTitle(lines: seq<string>, filename: string): (r: string)
    ensures r == FilenameTitle(filename)
            || exists i :: 0 <= i < |lines| && i < TitleScanLines && TitleOfLine(lines[i]) == Some(r)
  {
    FirstSomeOfPrefix(lines, TitleOfLine, TitleScanLines);
    var found := FirstSome(Take(lines, TitleScanLines), TitleOfLine).GetOr(Untitled);
    if found == Untitled then FilenameTitle(filename) else found
  }

  /** What `FirstSome` finds among the first `n` lines is what `f` gives for one of them. */
  lemma FirstSomeOfPrefix(lines: seq<string>, f: string -> Option<string>, n: nat)
    ensures FirstSome(Take(lines, n), f).Some? ==>
      exists i :: 0 <= i < |lines| && i < n && f(lines[i]) == FirstSome(Take(lines, n), f)
  {
    var scanned := Take(lines, n);
    assert forall i :: 0 <= i < |scanned| ==> scanned[i] == lines[i];
  }

  /** `parse_markdown_content(file_info)`. The downloaded text is first cut to the size
      limit of `fetch_url`, then parsed. */
  function ParseMarkdownContent(file: BlogFile, download: Download): (r: ParsedPost)
    ensures |r.title| <= TitleMaxLength
    ensures r.url == file.htmlUrl
    ensures download.DownloadFailed? ==>
      r == ParsedPost(ErrorTitle, file.htmlUrl, "Error: " + download.message, "Error: " + download.message, None, file.name)
    ensures download.Downloaded? ==>
      var text := TruncateContent(download.text);
      var lines := Split(text, '\n');
      && r.title == Take(ChosenTitle(lines, file.name), TitleMaxLength)
      && r.date == FirstSome(Take(lines, DateScanLines), DateOfLine)
      && r.content == Strip(CollapseBlankLines(text))
      && |r.content| <= MaxContentLength
      && r.excerpt == Excerpt(r.content)
      && r.filename == file.name
  {
    match download
    case DownloadFailed(message) =>
      ParsedPost(ErrorTitle, file.htmlUrl, "Error: " + message, "Error: " + message, None, file.name)
    case Downloaded(raw) =>
      var text := TruncateContent(raw);
      var lines := Split(text, '\n');
      var content := Strip(CollapseBlankLines(text));
      ParsedPost(Take(ChosenTitle(lines, file.name), TitleMaxLength), file.htmlUrl, content,
                 Excerpt(content), FirstSome(Take(lines, DateScanLines), DateOfLine), file.name)
  }

  /** A header line within the first ten lines, with no header line before it, names the
      post (unless it reads "Untitled"). */
  lemma {:induction false} HeadingNamesPost(lines: seq<string>, filename: string, i: nat)
    requires i < |lines| && i < TitleScanLines
    requires TitleOfLine(lines[i]).Some? && TitleOfLine(lines[i]).value != Untitled
    requires forall j :: 0 <= j < i ==> TitleOfLine(lines[j]).None?
    ensures ChosenTitle(lines, filename) == TitleOfLine(lines[i]).value
  {
    FirstSomeAtPrefix(lines, TitleOfLine, TitleScanLines, i);
  }

  /** The first line `f` recognises among the first `n` decides `FirstSome` on them. */
  lemma FirstSomeAtPrefix(lines: seq<string>, f: string -> Option<string>, n: nat, i: nat)
    requires i < |lines| && i < n && f(lines[i]).Some?
    requires forall j :: 0 <= j < i ==> f(lines[j]).None?
    ensures FirstSome(Take(lines, n), f) == f(lines[i])
  {
    var scanned := Take(lines, n);
    assert forall j :: 0 <= j <= i ==> scanned[j] == lines[j];
    FirstSomeAt(scanned, f, i);
  }

  /** The first line `f` recognises decides `FirstSome`. */
  lemma FirstSomeAt(lines: seq<string>, f: string -> Option<string>, i: nat)
    requires i < |lines| && f(lines[i]).Some?
    requires forall j :: 0 <= j < i ==> f(lines[j]).None?
    ensures FirstSome(lines, f) == f(lines[i])
  {
    var found := FirstSome(lines, f);
    var k :| 0 <= k < |lines| && f(lines[k]) == found && forall j :: 0 <= j < k ==> f(lines[j]).None?;
    assert !(k < i) && !(i < k);
  }

  /** With no header line among the first ten, the post is named after its file. */
  lemma {:induction false} NoHeadingUsesFilename(lines: seq<string>, filename: string)
    requires forall j :: 0 <= j < |lines| && j < TitleScanLines ==> TitleOfLine(lines[j]).None?
    ensures ChosenTitle(lines, filename) == FilenameTitle(filename)
  {
    var scanned := Take(lines, TitleScanLines);
    assert forall j :: 0 <= j < |scanned| ==> scanned[j] == lines[j];
    assert FirstSome(scanned, TitleOfLine).None?;
  }
}

=== FILE: ordering.dfy ===
/** The order `recent_blog_posts` and `all_blog_posts` list posts in: Python's string
    comparison on `last_modified`, newest first, with a stable sort. */
module Ordering {
  import opened Index

  /** Python's `a <= b` on strings: code-point lexicographic order, a prefix first. */
  predicate LexLe(a: string, b: string)
    decreases |a|
  {
    |a| == 0 || (|b| > 0 && (a[0] < b[0] || (a[0] == b[0] && LexLe(a[1..], b[1..]))))
  }

  lemma {:induction false} LexLeTotal(a: string, b: string)
    ensures LexLe(a, b) || LexLe(b, a)
    decreases |a|
  {
    if |a| > 0 && |b| > 0 && a[0] == b[0] {
      LexLeTotal(a[1..], b[1..]);
    }
  }

  lemma {:induction false} LexLeTransitive(a: string, b: string, c: string)
    requires LexLe(a, b) && LexLe(b, c)
    ensures LexLe(a, c)
    decreases |a|
  {
    if |a| > 0 && a[0] == b[0] && b[0] == c[0] {
      LexLeTransitive(a[1..], b[1..], c[1..]);
    }
  }

  lemma {:induction false} LexLeAntisymmetric(a: string, b: string)
    requires LexLe(a, b) && LexLe(b, a)
    ensures a == b
    decreases |a|
  {
    if |a| > 0 {
      LexLeAntisymmetric(a[1..], b[1..]);
      assert a == [a[0]] + a[1..] && b == [b[0]] + b[1..];
    }
  }

  lemma {:induction false} LexLeReflexive(a: string)
    ensures LexLe(a, a)
    decreases |a|
  {
    if |a| > 0 {
      LexLeReflexive(a[1..]);
    }
  }

  /** The key a post sorts by: its `last_modified`, or a timestamp older than any real one
      when it has none. */
  const MissingTimestamp: string := "0000-00-00T00:00:00"

  function SortKey(p: Post): (r: string)
    ensures r != ""
    ensures p.lastModified != "" ==> r == p.lastModified
    // a post without a timestamp sorts no newer than any post with a well-formed one
    ensures TimestampShaped(p.lastModified) ==> LexLe(MissingTimestamp, r)
  {
    if p.lastModified != "" then
      assert TimestampShaped(p.lastModified) ==> LexLe(MissingTimestamp, p.lastModified) by {
        if TimestampShaped(p.lastModified) {
          PaddedLe(MissingTimestamp, p.lastModified);
        }
      }
      p.lastModified
    else MissingTimestamp
  }

  /** A `YYYY-MM-DDTHH:MM:SS` timestamp (possibly followed by more text): digits where the
      placeholder has zeros, the same separators elsewhere. */
  predicate TimestampShaped(t: string) {
    && |MissingTimestamp| <= |t|
    && forall k :: 0 <= k < |MissingTimestamp| ==>
         if MissingTimestamp[k] == '0' then '0' <= t[k] <= '9' else t[k] == MissingTimestamp[k]
  }

  /** A string no longer than `t` whose every character is at most `t`'s at the same
      position comes first. */
  lemma {:induction false} PaddedLe(a: string, t: string)
    requires |a| <= |t| && forall k :: 0 <= k < |a| ==> a[k] <= t[k]
    ensures LexLe(a, t)
    decreases |a|
  {
    if |a| > 0 && a[0] == t[0] {
      PaddedLe(a[1..], t[1..]);
    }
  }

  /** Newest first: no post is preceded by one with a smaller key. */
  ghost predicate Descending(s: seq<Post>) {
    forall i, j :: 0 <= i < j < |s| ==> LexLe(SortKey(s[j]), SortKey(s[i]))
  }

  /** Places `p` before the first post whose key is not larger than its own, so `p` stays
      ahead of every post with an equal key that came after it. */
  function Insert(p: Post, s: seq<Post>): (r: seq<Post>)
    ensures |r| == |s| + 1
    ensures multiset(r) == multiset([p] + s)
    ensures forall x :: x in r <==> x == p || x in s
    decreases |s|
  {
    if |s| == 0 || LexLe(SortKey(s[0]), SortKey(p)) then [p] + s
    else
      var t := Insert(p, s[1..]);
      ConsPermutes(p, s, t);
      [s[0]] + t
  }

  /** Putting the head of `s` back in front of a permutation of `[p] + s[1..]` gives a
      permutation of `[p] + s`. */
  lemma ConsPermutes(p: Post, s: seq<Post>, t: seq<Post>)
    requires |s| > 0 && multiset(t) == multiset([p] + s[1..])
    ensures multiset([s[0]] + t) == multiset([p] + s)
    ensures forall x :: x in [s[0]] + t <==> x == p || x in s
  {
    assert s == [s[0]] + s[1..];
    assert multiset([s[0]] + t) == multiset([s[0]]) + multiset(t);
    assert multiset([p] + s) == multiset([s[0]]) + multiset([p] + s[1..]);
    forall x
      ensures x in [s[0]] + t <==> x == p || x in s
    {
      assert x in [s[0]] + t <==> x in multiset([s[0]] + t);
      assert x in [p] + s <==> x in multiset([p] + s);
    }
  }

  /** A post whose key bounds every key of a descending list may head it. */
  lemma {:induction false} DescendingCons(p: Post, s: seq<Post>)
    requires Descending(s)
    requires forall k :: 0 <= k < |s| ==> LexLe(SortKey(s[k]), SortKey(p))
    ensures Descending([p] + s)
  {
    var r := [p] + s;
    assert forall k :: 0 < k < |r| ==> r[k] == s[k - 1];
    assert r[0] == p;
  }

  lemma {:induction false} InsertDescending(p: Post, s: seq<Post>)
    requires Descending(s)
    ensures Descending(Insert(p, s))
    decreases |s|
  {
    if |s| == 0 || LexLe(SortKey(s[0]), SortKey(p)) {
      forall k | 0 < k < |s|
        ensures LexLe(SortKey(s[k]), SortKey(p))
      {
        LexLeTransitive(SortKey(s[k]), SortKey(s[0]), SortKey(p));
      }
      DescendingCons(p, s);
    } else {
      DescendingUncons(s);
      InsertDescending(p, s[1..]);
      LexLeTotal(SortKey(s[0]), SortKey(p));
      InsertBounded(p, s[1..], SortKey(s[0]));
      DescendingCons(s[0], Insert(p, s[1..]));
    }
  }

  /** The tail of a descending list is descending and bounded by its head. */
  lemma DescendingUncons(s: seq<Post>)
    requires |s| > 0 && Descending(s)
    ensures Descending(s[1..])
    ensures forall k :: 0 <= k < |s[1..]| ==> LexLe(SortKey(s[1..][k]), SortKey(s[0]))
  {
    forall k | 0 <= k < |s[1..]|
      ensures LexLe(SortKey(s[1..][k]), SortKey(s[0]))
    {
      assert s[1..][k] == s[k + 1];
    }
  }

  /** Inserting keeps a common upper bound of the keys. */
  lemma InsertBounded(p: Post, s: seq<Post>, b: string)
    requires LexLe(SortKey(p), b)
    requires forall k :: 0 <= k < |s| ==> LexLe(SortKey(s[k]), b)
    ensures forall k :: 0 <= k < |Insert(p, s)| ==> LexLe(SortKey(Insert(p, s)[k]), b)
  {
    var t := Insert(p, s);
    forall k | 0 <= k < |t|
      ensures LexLe(SortKey(t[k]), b)
    {
      assert t[k] in t;
      if t[k] != p {
        var m :| 0 <= m < |s| && s[m] == t[k];
      }
    }
  }

  /** `posts.sort(key=SortKey, reverse=True)`. */
  function SortPosts(s: seq<Post>): (r: seq<Post>)
    ensures |r| == |s|
    ensures multiset(r) == multiset(s)
    decreases |s|
  {
    if |s| == 0 then []
    else
      var r := Insert(s[0], SortPosts(s[1..]));
      assert s == [s[0]] + s[1..];
      r
  }

  /** The sorted list is in descending key order. */
  lemma {:induction false} SortPostsDescending(s: seq<Post>)
    ensures Descending(SortPosts(s))
    decreases |s|
  {
    if |s| > 0 {
      SortPostsDescending(s[1..]);
      InsertDescending(s[0], SortPosts(s[1..]));
    }
  }

  /** The posts of `s` whose key is `k`, in order. */
  function WithKey(s: seq<Post>, k: string): (r: seq<Post>)
    ensures forall p :: p in r <==> p in s && SortKey(p) == k
    decreases |s|
  {
    if |s| == 0 then []
    else if SortKey(s[0]) == k then [s[0]] + WithKey(s[1..], k)
    else WithKey(s[1..], k)
  }

  lemma {:induction false} InsertKeepsKeyOrder(p: Post, s: seq<Post>, k: string)
    ensures WithKey(Insert(p, s), k) == WithKey([p] + s, k)
    decreases |s|
  {
    if !(|s| == 0 || LexLe(SortKey(s[0]), SortKey(p))) {
      InsertKeepsKeyOrder(p, s[1..], k);
      assert ([s[0]] + Insert(p, s[1..]))[1..] == Insert(p, s[1..]);
      assert ([p] + s[1..])[1..] == s[1..];
      assert ([p] + s)[1..] == s;
      if SortKey(p) == k {
        // s[0] has a larger key than p, so it is not among the posts with key k
        LexLeReflexive(k);
        assert SortKey(s[0]) != k;
        assert ([s[0]] + s[1..])[1..] == s[1..];
        assert s == [s[0]] + s[1..];
      } else {
        assert ([p] + ([s[0]] + s[1..]))[1..] == [s[0]] + s[1..];
        assert s == [s[0]] + s[1..];
      }
    }
  }

  /** The sort is stable: posts with equal keys keep their relative order. */
  lemma {:induction false} SortPostsStable(s: seq<Post>, k: string)
    ensures WithKey(SortPosts(s), k) == WithKey(s, k)
    decreases |s|
  {
    if |s| > 0 {
      SortPostsStable(s[1..], k);
      InsertKeepsKeyOrder(s[0], SortPosts(s[1..]), k);
      assert ([s[0]] + SortPosts(s[1..]))[1..] == SortPosts(s[1..]);
    }
  }
}

=== FILE: queries.dfy ===
/** The query tools over one repository's index: `blog_search`, `recent_blog_posts`,
    `all_blog_posts` and the choice made by `random_blog` / `random_blog_url`. */
module Queries {
  import opened Wrappers
  import opened Strings
  import opened Errors
  import opened Index
  import opened Ordering

  /** The `limit` argument as `int(limit)` sees it: a number, or something it rejects. */
  datatype LimitArg = Given(n: int) | Unparseable

  const SearchMaxLimit: nat := 20
  const SearchDefaultLimit: nat := 5
  const RecentMaxLimit: nat := 50
  const RecentDefaultLimit: nat := 20

  /** The longest query the search keeps. */
  const QueryMaxLength: nat := 100

  /** A limit clamped into `[1, max]`, or `default` when it is not a number. */
  function ClampLimit(arg: LimitArg, max: nat, default: nat): (r: nat)
    requires 1 <= default <= max
    ensures 1 <= r <= max
    ensures arg.Given? && 1 <= arg.n <= max ==> r == arg.n
    ensures arg.Given? && arg.n < 1 ==> r == 1
    ensures arg.Given? && arg.n > max ==> r == max
    ensures arg.Unparseable? ==> r == default
  {
    match arg
    case Unparseable => default
    case Given(n) => if n < 1 then 1 else if n > max then max else n
  }

  // ---------------------------------------------------------------------------
  // blog_search

  /** The query as the search uses it: stripped, lower-cased, cut to 100 characters;
      a query that is empty once stripped is refused. */
  function NormalizeQuery(query: string): (r: Result<string, Failure>)
    ensures r.Err? <==> Strip(query) == ""
    ensures r.Err? ==> r.error == EmptyQuery
    ensures r.Ok? ==> |r.value| == if |Strip(query)| < QueryMaxLength then |Strip(query)| else QueryMaxLength
    ensures r.Ok? ==> StartsWith(Lower(Strip(query)), r.value)
    ensures r.Ok? ==> forall k :: 0 <= k < |r.value| ==> !IsUpper(r.value[k])
  {
    var stripped := Strip(query);
    if |stripped| == 0 then Err(EmptyQuery)
    else
      LoweredPrefix(stripped, QueryMaxLength);
      Ok(Take(Lower(stripped), QueryMaxLength))
  }

  /** A prefix of a lower-cased string is a prefix of it with no upper-case letter. */
  lemma LoweredPrefix(s: string, n: nat)
    ensures StartsWith(Lower(s), Take(Lower(s), n))
    ensures forall k :: 0 <= k < |Take(Lower(s), n)| ==> !IsUpper(Take(Lower(s), n)[k])
  {
    var cut := Take(Lower(s), n);
    assert forall k :: 0 <= k < |cut| ==> cut[k] == LowerChar(s[k]);
  }

  /** The query occurs in the lower-cased title (missing: "") or description. */
  predicate MatchesQuery(info: PostInfo, query: string)
    ensures query == "" ==> MatchesQuery(info, query)
    ensures MatchesQuery(info, query) ==> |query| <= |info.title.GetOr("")| || |query| <= |info.description|
  {
    ContainsLength(Lower(info.title.GetOr("")), query);
    ContainsLength(Lower(info.description), query);
    Contains(Lower(info.title.GetOr("")), query) || Contains(Lower(info.description), query)
  }

  /** Whether an entry is a search result for `query`: a blog entry that matches. */
  function Matcher(query: string): (keep: Entry -> bool) {
    (e: Entry) => IsBlogPath(e.1.markdownPath) && MatchesQuery(e.1, query)
  }

  /** The entries of `u` that `keep` accepts, in index order. */
  function Filter(u: UrlInfo, keep: Entry -> bool): (r: UrlInfo)
    ensures forall e :: e in r <==> e in u && keep(e)
    decreases |u|
  {
    if |u| == 0 then []
    else if keep(u[0]) then [u[0]] + Filter(u[1..], keep)
    else Filter(u[1..], keep)
  }

  /** Every blog entry that matches, in index order: the search without its limit. */
  function AllMatches(u: UrlInfo, query: string): (r: UrlInfo)
    ensures forall e :: e in r <==> e in u && IsBlogPath(e.1.markdownPath) && MatchesQuery(e.1, query)
  {
    Filter(u, Matcher(query))
  }

  lemma {:induction false} FilterAppend(a: UrlInfo, b: UrlInfo, keep: Entry -> bool)
    ensures Filter(a + b, keep) == Filter(a, keep) + Filter(b, keep)
    decreases |a|
  {
    if |a| > 0 {
      assert (a + b)[0] == a[0];
      assert (a + b)[1..] == a[1..] + b;
      FilterAppend(a[1..], b, keep);
      if keep(a[0]) {
        assert Filter(a + b, keep) == [a[0]] + (Filter(a[1..], keep) + Filter(b, keep));
      } else {
        assert Filter(a + b, keep) == Filter(a[1..], keep) + Filter(b, keep);
      }
    } else {
      assert a + b == b;
    }
  }

  /** One more entry of the index adds itself to the kept entries when it is kept. */
  lemma FilterStep(u: UrlInfo, i: nat, keep: Entry -> bool)
    requires i < |u|
    ensures Filter(u[..i + 1], keep) == Filter(u[..i], keep) + if keep(u[i]) then [u[i]] else []
  {
    FilterAppend(u[..i], [u[i]], keep);
    assert u[..i + 1] == u[..i] + [u[i]];
    assert [u[i]][1..] == [];
  }

  /** The entries kept from a prefix are the first ones kept from the whole index. */
  lemma FilterEarlyStop(u: UrlInfo, n: nat, keep: Entry -> bool)
    requires n <= |u|
    ensures Take(Filter(u, keep), |Filter(u[..n], keep)|) == Filter(u[..n], keep)
  {
    FilterAppend(u[..n], u[n..], keep);
    assert u[..n] + u[n..] == u;
  }

  /** The first `n` kept entries are entries of the index that `keep` accepts. */
  lemma FilterTake(u: UrlInfo, keep: Entry -> bool, n: nat)
    ensures forall e :: e in Take(Filter(u, keep), n) ==> e in u && keep(e)
  {
    var all := Filter(u, keep);
    forall e | e in Take(all, n)
      ensures e in all
    {
      var k :| 0 <= k < |Take(all, n)| && Take(all, n)[k] == e;
      assert all[k] == e;
    }
  }

  /** The search loop: walks the index in order and stops as soon as `limit` posts match. */
  method SearchEntries(u: UrlInfo, query: string, limit: nat) returns (hits: UrlInfo)
    requires limit >= 1
    ensures hits == Take(AllMatches(u, query), limit)
    ensures |hits| <= limit
    ensures forall e :: e in hits ==> e in u && IsBlogPath(e.1.markdownPath) && MatchesQuery(e.1, query)
  {
    var keep := Matcher(query);
    hits := [];
    var i := 0;
    while i < |u|
      invariant 0 <= i <= |u|
      invariant hits == Filter(u[..i], keep)
      invariant |hits| < limit
    {
      var e := u[i];
      FilterStep(u, i, keep);
      if keep(e) {
        hits := hits + [e];
        if |hits| >= limit {
          FilterEarlyStop(u, i + 1, keep);
          FilterTake(u, keep, limit);
          return;
        }
      }
      i := i + 1;
    }
    assert u[..i] == u;
    FilterTake(u, keep, limit);
  }

  /** One search result: the post and its link lists. */
  datatype SearchHit = SearchHit(post: Post, incomingLinks: seq<string>, outgoingLinks: seq<string>)

  /** A successful search: the normalised query, the limit used and the results. */
  datatype SearchReply = SearchReply(query: string, limit: nat, hits: seq<SearchHit>)

  /** The search result for one entry: its post together with the entry's own link lists. */
  function HitOf(e: Entry): (h: SearchHit)
    ensures h.post == PostOf(e)
    ensures h.incomingLinks == e.1.incomingLinks && h.outgoingLinks == e.1.outgoingLinks
  {
    SearchHit(PostOf(e), e.1.incomingLinks, e.1.outgoingLinks)
  }

  /** The body of `blog_search` once the query is normalised, the limit clamped and the
      index read: an empty index and an empty result are both reported as errors. */
  method Search(repo: string, u: UrlInfo, query: string, limit: nat) returns (r: Result<SearchReply, Failure>)
    requires limit >= 1
    ensures u == [] ==> r == Err(NoPostsInRepo(repo))
    ensures u != [] && AllMatches(u, query) == [] ==> r == Err(NoMatches(query))
    ensures r.Ok? <==> AllMatches(u, query) != []
    ensures r.Ok? ==> r.value.query == query && r.value.limit == limit
    ensures r.Ok? ==> |r.value.hits| == if |AllMatches(u, query)| < limit then |AllMatches(u, query)| else limit
    ensures r.Ok? ==> forall i :: 0 <= i < |r.value.hits| ==> r.value.hits[i] == HitOf(AllMatches(u, query)[i])
  {
    if u == [] {
      return Err(NoPostsInRepo(repo));
    }
    var entries := SearchEntries(u, query, limit);
    if entries == [] {
      return Err(NoMatches(query));
    }
    var hits := seq(|entries|, i requires 0 <= i < |entries| => HitOf(entries[i]));
    r := Ok(SearchReply(query, limit, hits));
  }

  // ---------------------------------------------------------------------------
  // recent_blog_posts / all_blog_posts

  /** The blog posts of an index, newest first; an index without any is an error. */
  function AllPosts(repo: string, u: UrlInfo): (r: Result<seq<Post>, Failure>)
    ensures r.Err? <==> BlogEntries(u) == []
    ensures r.Err? ==> r.error == NoPostsInRepo(repo)
    ensures r.Ok? ==> multiset(r.value) == multiset(PostsOf(BlogEntries(u)))
    ensures r.Ok? ==> forall p :: p in r.value ==> IsBlogPath(p.markdownPath)
  {
    if u == [] then Err(NoPostsInRepo(repo))
    else
      var posts := PostsOf(BlogEntries(u));
      if posts == [] then Err(NoPostsInRepo(repo))
      else
        var sorted := SortPosts(posts);
        assert forall p :: p in sorted ==> p in multiset(posts);
        Ok(sorted)
  }

  /** `all_blog_posts` lists every blog post, newest first, and posts with the same
      timestamp in index order. */
  lemma AllPostsOrdered(repo: string, u: UrlInfo, k: string)
    requires AllPosts(repo, u).Ok?
    ensures Descending(AllPosts(repo, u).value)
    ensures WithKey(AllPosts(repo, u).value, k) == WithKey(PostsOf(BlogEntries(u)), k)
  {
    SortPostsDescending(PostsOf(BlogEntries(u)));
    SortPostsStable(PostsOf(BlogEntries(u)), k);
  }

  /** The first `limit` posts of `all_blog_posts`' order. */
  function RecentPosts(repo: string, u: UrlInfo, limit: nat): (r: Result<seq<Post>, Failure>)
    ensures r.Err? <==> BlogEntries(u) == []
    ensures r.Err? ==> r.error == NoPostsInRepo(repo)
    ensures r.Ok? ==> |r.value| == if limit < |BlogEntries(u)| then limit else |BlogEntries(u)|
    ensures r.Ok? ==> forall p :: p in r.value ==> IsBlogPath(p.markdownPath)
    ensures r.Ok? ==> AllPosts(repo, u).Ok? && r.value == AllPosts(repo, u).value[..|r.value|]
    ensures r.Ok? ==> multiset(r.value) <= multiset(PostsOf(BlogEntries(u)))
  {
    match AllPosts(repo, u)
    case Err(e) => Err(e)
    case Ok(posts) =>
      PrefixSubMultiset(posts, |Take(posts, limit)|);
      Ok(Take(posts, limit))
  }

  /** A prefix holds no more copies of anything than the whole list. */
  lemma PrefixSubMultiset<T>(s: seq<T>, n: nat)
    requires n <= |s|
    ensures multiset(s[..n]) <= multiset(s)
  {
    assert s == s[..n] + s[n..];
    assert multiset(s) == multiset(s[..n]) + multiset(s[n..]);
  }

  /** In a descending list, whatever lies beyond the first `n` is no newer than anything
      within them. */
  lemma {:induction false} DescendingSplit(all: seq<Post>, n: nat)
    requires Descending(all) && n <= |all|
    ensures forall p, q :: p in all[..n] && q in multiset(all) - multiset(all[..n]) ==>
      LexLe(SortKey(q), SortKey(p))
  {
    RestMultiset(all, n);
    forall p, q | p in all[..n] && q in all[n..]
      ensures LexLe(SortKey(q), SortKey(p))
    {
      var i := IndexIn(all[..n], p);
      var j := IndexIn(all[n..], q);
      assert all[i] == p && all[n + j] == q;
    }
  }

  /** A position at which `x` occurs in `s`. */
  function IndexIn<T(==)>(s: seq<T>, x: T): (i: nat)
    requires x in s
    ensures i < |s| && s[i] == x
  {
    if s[0] == x then 0 else IndexIn(s[1..], x) + 1
  }

  /** What a prefix leaves of the list's multiset is the multiset of the rest. */
  lemma RestMultiset<T>(s: seq<T>, n: nat)
    requires n <= |s|
    ensures multiset(s) - multiset(s[..n]) == multiset(s[n..])
  {
    assert s == s[..n] + s[n..];
    assert multiset(s) == multiset(s[..n]) + multiset(s[n..]);
  }

  /** The recent posts are blog posts of the index, newest first, and no post of the index
      left out is newer than one listed. */
  lemma RecentPostsAreNewest(repo: string, u: UrlInfo, limit: nat)
    requires RecentPosts(repo, u, limit).Ok?
    ensures var recent := RecentPosts(repo, u, limit).value;
      && multiset(recent) <= multiset(PostsOf(BlogEntries(u)))
      && Descending(recent)
      && forall p, q :: p in recent && q in multiset(PostsOf(BlogEntries(u))) - multiset(recent) ==>
           LexLe(SortKey(q), SortKey(p))
  {
    var all := AllPosts(repo, u).value;
    var recent := RecentPosts(repo, u, limit).value;
    SortPostsDescending(PostsOf(BlogEntries(u)));
    assert recent == all[..|recent|];
    DescendingSplit(all, |recent|);
  }

  // ---------------------------------------------------------------------------
  // random_blog / random_blog_url

  /** The file `random.choice` picks, given the index it draws; an empty list is reported. */
  function RandomFile(repo: string, files: seq<BlogFile>, draw: nat): (r: Result<BlogFile, Failure>)
    ensures r.Err? <==> files == []
    ensures r.Err? ==> r.error == NoPostsInRepo(repo)
    ensures r.Ok? ==> r.value in files
  {
    if files == [] then Err(NoPostsInRepo(repo)) else Ok(files[draw % |files|])
  }

  /** Every file of the list can be drawn. */
  lemma RandomFileReachesAll(repo: string, files: seq<BlogFile>, f: BlogFile)
    requires f in files
    ensures exists draw: nat :: RandomFile(repo, files, draw) == Ok(f)
  {
    var i :| 0 <= i < |files| && files[i] == f;
    assert i % |files| == i;
    assert RandomFile(repo, files, i) == Ok(f);
  }
}

=== FILE: repos.dfy ===
/** The repository allow-list: `initialize_repos`, `validate_repo` and `list_repos`. The
    configuration values and the GitHub listing of the owner's repositories are parameters. */
module Repos {
  import opened Wrappers
  import opened Strings
  import opened Errors

  /** `DEFAULT_REPO` and `GITHUB_REPOS` at their default values. */
  const DefaultRepo: string := "idvorkin.github.io"
  const DefaultReposConfig: string := "idvorkin.github.io"

  /** What asking GitHub for the owner's public repositories produced (wildcard configuration). */
  datatype RepoListing = Listed(names: seq<string>) | ListingFailed

  /** The names of the comma-separated configuration, each stripped of surrounding whitespace. */
  function ExplicitRepos(config: string): (r: seq<string>)
    ensures |r| == |Split(config, ',')|
    ensures forall i :: 0 <= i < |r| ==> r[i] == Strip(Split(config, ',')[i])
  {
    var parts := Split(config, ',');
    seq(|parts|, i requires 0 <= i < |parts| => Strip(parts[i]))
  }

  /** Puts `default` at the front of `repos` when it is missing, and changes nothing otherwise. */
  function EnsureDefault(repos: seq<string>, default: string): (r: seq<string>)
    ensures default in r
    ensures default in repos ==> r == repos
    ensures default !in repos ==> r == [default] + repos
  {
    if default in repos then repos else [default] + repos
  }

  /** `initialize_repos()`: the list of allowed repositories. */
  function InitializeRepos(config: string, listing: RepoListing, default: string): (r: seq<string>)
    ensures default in r
    ensures config != "*" ==>
      r == (if default in ExplicitRepos(config) then ExplicitRepos(config) else [default] + ExplicitRepos(config))
    ensures config == "*" && listing.ListingFailed? ==> r == [default]
    ensures config == "*" && listing.Listed? ==> r == EnsureDefault(listing.names, default)
  {
    var base :=
      if config == "*" then
        match listing
        case Listed(names) => names
        case ListingFailed => [default]
      else ExplicitRepos(config);
    EnsureDefault(base, default)
  }

  /** `validate_repo(repo)`: no name means the default; a given name is stripped and must
      be on the list. */
  function ValidateRepo(allowed: seq<string>, default: string, repo: Option<string>): (r: Result<string, Failure>)
    ensures repo.None? ==> r == Ok(default)
    ensures repo.Some? ==> (r.Ok? <==> Strip(repo.value) in allowed)
    ensures repo.Some? && r.Ok? ==> r.value == Strip(repo.value)
    ensures repo.Some? && r.Err? ==> r.error == RepoNotAllowed(Strip(repo.value), allowed)
  {
    match repo
    case None => Ok(default)
    case Some(name) =>
      var name := Strip(name);
      if name in allowed then Ok(name) else Err(RepoNotAllowed(name, allowed))
  }

  /** A name that validation returned validates to itself. */
  lemma {:induction false} ValidateRepoIdempotent(allowed: seq<string>, default: string, name: string)
    requires ValidateRepo(allowed, default, Some(name)).Ok?
    ensures var v := ValidateRepo(allowed, default, Some(name)).value;
      ValidateRepo(allowed, default, Some(v)) == Ok(v)
  {
    StripIdempotent(name);
  }

  /** After initialisation every repository the caller may name resolves inside the list:
      the default, and (explicit configuration) every comma-separated name, with or without
      surrounding whitespace. */
  lemma {:induction false} InitializedListAccepts(config: string, listing: RepoListing, default: string)
    ensures var allowed := InitializeRepos(config, listing, default);
      && ValidateRepo(allowed, default, None) == Ok(default)
      && default in allowed
      && (Strip(default) == default ==> ValidateRepo(allowed, default, Some(default)) == Ok(default))
      && (config != "*" ==> forall part :: part in Split(config, ',') ==>
            ValidateRepo(allowed, default, Some(part)) == Ok(Strip(part)))
  {
    var allowed := InitializeRepos(config, listing, default);
    if config != "*" {
      var parts := Split(config, ',');
      forall part | part in parts
        ensures Strip(part) in allowed
      {
        var i :| 0 <= i < |parts| && parts[i] == part;
        assert ExplicitRepos(config)[i] == Strip(part);
      }
    }
  }

  /** Every name on the initialised list is the default or comes from the configuration. */
  lemma {:induction false} InitializedListSound(config: string, listing: RepoListing, default: string)
    requires config != "*"
    ensures forall name :: name in InitializeRepos(config, listing, default) ==>
      name == default || exists part :: part in Split(config, ',') && Strip(part) == name
  {
    var parts := Split(config, ',');
    var explicit := ExplicitRepos(config);
    assert InitializeRepos(config, listing, default) == EnsureDefault(explicit, default);
    forall name | name in InitializeRepos(config, listing, default) && name != default
      ensures exists part :: part in parts && Strip(part) == name
    {
      assert name in explicit;
      var i :| 0 <= i < |explicit| && explicit[i] == name;
      assert Strip(parts[i]) == name;
      assert parts[i] in parts;
    }
  }

  /** `list_repos()`: the current list, initialised first when it is still empty. */
  function ListRepos(allowed: seq<string>, config: string, listing: RepoListing, default: string): (r: seq<string>)
    ensures |r| > 0 && (allowed != [] ==> r == allowed)
    ensures allowed == [] ==> default in r
    ensures allowed == [] ==> r == InitializeRepos(config, listing, default)
  {
    if allowed == [] then InitializeRepos(config, listing, default) else allowed
  }
}

=== FILE: resolve.dfy ===
/** How `read_blog_post` turns its `url` argument into the blog file it downloads: input
    normalisation, then a direct hit, a single top-level redirect, and finally the
    deprecated per-post `redirect_url`. */
module Resolve {
  import opened Wrappers
  import opened Strings
  import opened Errors
  import opened Index

  /** The only host whose full URLs are accepted, and the prefixes removed from them. */
  const BlogHost: string := "idvork.in"
  const HttpsPrefix: string := "https://idvork.in"
  const HttpPrefix: string := "http://idvork.in"

  /** The argument check made before anything else: an argument that is empty once
      stripped is refused; otherwise the stripped argument is used. */
  function CheckUrl(url: string): (r: Result<string, Failure>)
    ensures r.Err? <==> |Strip(url)| == 0
    ensures r.Err? ==> r.error == EmptyUrl
    ensures r.Ok? ==> r.value == Strip(url) && !IsSpace(r.value[0]) && !IsSpace(r.value[|r.value| - 1])
  {
    var stripped := Strip(url);
    if |stripped| == 0 then Err(EmptyUrl) else Ok(stripped)
  }

  // ---------------------------------------------------------------------------
  // input normalisation

  /** The loose comparison `read_blog_post` uses to find a post by markdown path: equal,
      one a suffix of the other, or the same file name. */
  predicate MarkdownMatches(markdownPath: string, url: string)
    // equality is one of the suffix cases
    ensures MarkdownMatches(markdownPath, url) <==>
      markdownPath != "" && (EndsWith(markdownPath, url) || EndsWith(url, markdownPath)
                             || LastSegment(url, '/') == LastSegment(markdownPath, '/'))
  {
    && markdownPath != ""
    && (|| markdownPath == url
        || EndsWith(markdownPath, url)
        || EndsWith(url, markdownPath)
        || LastSegment(url, '/') == LastSegment(markdownPath, '/'))
  }

  /** The position of the first entry whose markdown path matches `url`. */
  function FirstMarkdownMatch(u: UrlInfo, url: string): (r: Option<nat>)
    ensures r.None? <==> forall i :: 0 <= i < |u| ==> !MarkdownMatches(u[i].1.markdownPath, url)
    ensures r.Some? ==> r.value < |u| && MarkdownMatches(u[r.value].1.markdownPath, url)
    ensures r.Some? ==> forall j :: 0 <= j < r.value ==> !MarkdownMatches(u[j].1.markdownPath, url)
    decreases |u|
  {
    if |u| == 0 then None
    else if MarkdownMatches(u[0].1.markdownPath, url) then Some(0)
    else
      match FirstMarkdownMatch(u[1..], url)
      case None => None
      case Some(i) => Some(i + 1)
  }

  /** A full URL on the blog host whose scheme and host occur only at its start loses
      exactly that prefix. */
  lemma FullUrlPath(url: string)
    ensures StartsWith(url, HttpsPrefix) && !Contains(url[|HttpsPrefix|..], HttpsPrefix)
            && !Contains(url[|HttpsPrefix|..], HttpPrefix) ==>
      Contains(url, BlogHost) && Replace(Replace(url, HttpsPrefix, ""), HttpPrefix, "") == url[|HttpsPrefix|..]
    ensures StartsWith(url, HttpPrefix) && !Contains(url, HttpsPrefix) && !Contains(url[|HttpPrefix|..], HttpPrefix) ==>
      Contains(url, BlogHost) && Replace(Replace(url, HttpsPrefix, ""), HttpPrefix, "") == url[|HttpPrefix|..]
  {
    if StartsWith(url, HttpsPrefix) {
      ContainsAt(url, BlogHost, 8);
      assert url[..|HttpsPrefix|] == HttpsPrefix;
    }
    if StartsWith(url, HttpPrefix) {
      ContainsAt(url, BlogHost, 7);
      assert url[..|HttpPrefix|] == HttpPrefix;
    }
  }

  /** The path of a full URL: refused unless the blog host occurs in it; otherwise every
      occurrence of the https and then of the http scheme-and-host is removed, and an empty
      remainder is the root `/`. A URL that carries its scheme and host only at the start
      loses exactly that prefix. */
  function HostPath(url: string): (r: Result<string, Failure>)
    ensures !Contains(url, BlogHost) ==> r == Err(NotFromBlogHost)
    ensures Contains(url, BlogHost) ==> r.Ok? && r.value != "" && |r.value| <= |url|
    ensures StartsWith(url, HttpsPrefix) && !Contains(url[|HttpsPrefix|..], HttpsPrefix)
            && !Contains(url[|HttpsPrefix|..], HttpPrefix) ==>
      r == Ok(if |url| == |HttpsPrefix| then "/" else url[|HttpsPrefix|..])
    ensures StartsWith(url, HttpPrefix) && !Contains(url, HttpsPrefix) && !Contains(url[|HttpPrefix|..], HttpPrefix) ==>
      r == Ok(if |url| == |HttpPrefix| then "/" else url[|HttpPrefix|..])
    ensures Contains(url, BlogHost) && !Contains(url, HttpsPrefix) && !Contains(url, HttpPrefix) ==> r == Ok(url)
  {
    FullUrlPath(url);
    if Contains(url, BlogHost) then
      var path := Replace(Replace(url, HttpsPrefix, ""), HttpPrefix, "");
      Ok(if path == "" then "/" else path)
    else Err(NotFromBlogHost)
  }

  /** The URL path an already-stripped argument names: a full URL is handled by `HostPath`,
      a markdown path is looked up in `url_info`, anything else is a path that gets a
      leading `/`. */
  function InputPath(u: UrlInfo, url: string): (r: Result<string, Failure>)
    ensures StartsWith(url, "http") ==> r == HostPath(url)
    ensures !StartsWith(url, "http") && Contains(url, ".md") ==>
      && (r.Ok? <==> exists i :: 0 <= i < |u| && MarkdownMatches(u[i].1.markdownPath, url))
      && (r.Err? ==> r.error == MarkdownPathNotFound(url))
      && (r.Ok? ==> exists i :: 0 <= i < |u| && u[i].0 == r.value && MarkdownMatches(u[i].1.markdownPath, url)
                      && forall j :: 0 <= j < i ==> !MarkdownMatches(u[j].1.markdownPath, url))
    ensures !StartsWith(url, "http") && !Contains(url, ".md") ==>
      r.Ok? && StartsWith(r.value, "/") && (if StartsWith(url, "/") then r.value == url else r.value == "/" + url)
  {
    if StartsWith(url, "http") then HostPath(url)
    else if Contains(url, ".md") then
      match FirstMarkdownMatch(u, url)
      case Some(i) => Ok(u[i].0)
      case None => Err(MarkdownPathNotFound(url))
    else if StartsWith(url, "/") then Ok(url)
    else Ok("/" + url)
  }

  // ---------------------------------------------------------------------------
  // looking the path up

  /** `files[i]` is the first file whose path is `markdownPath`. */
  predicate FirstFileAt(files: seq<BlogFile>, markdownPath: string, i: nat) {
    && i < |files|
    && files[i].path == markdownPath
    && forall j :: 0 <= j < i ==> files[j].path != markdownPath
  }

  /** The first blog file whose path is `markdownPath` (`get_blog_post_by_markdown_path`). */
  function FindFile(files: seq<BlogFile>, markdownPath: string): (r: Option<BlogFile>)
    ensures r.None? <==> forall f :: f in files ==> f.path != markdownPath
    ensures r.Some? ==> exists i: nat :: FirstFileAt(files, markdownPath, i) && r.value == files[i]
    decreases |files|
  {
    if |files| == 0 then None
    else if files[0].path == markdownPath then
      assert FirstFileAt(files, markdownPath, 0);
      Some(files[0])
    else
      var r := FindFile(files[1..], markdownPath);
      assert r.Some? ==> exists i: nat :: FirstFileAt(files, markdownPath, i) && r.value == files[i] by {
        if r.Some? {
          var i: nat :| FirstFileAt(files[1..], markdownPath, i) && r.value == files[1..][i];
          assert FirstFileAt(files, markdownPath, i + 1);
        }
      }
      r
  }

  /** `u[i]` is the first entry of the index whose markdown path is `markdownPath`. */
  predicate FirstWithPathAt(u: UrlInfo, markdownPath: string, i: nat) {
    && i < |u|
    && u[i].1.markdownPath == markdownPath
    && forall j :: 0 <= j < i ==> u[j].1.markdownPath != markdownPath
  }

  /** For a blog path, the first blog entry with that path is the first entry with it. */
  lemma {:induction false} FirstBlogEntryIsFirst(u: UrlInfo, markdownPath: string, k: nat)
    requires IsBlogPath(markdownPath)
    requires k < |BlogEntries(u)| && BlogEntries(u)[k].1.markdownPath == markdownPath
    requires forall j :: 0 <= j < k ==> BlogEntries(u)[j].1.markdownPath != markdownPath
    ensures exists i: nat :: FirstWithPathAt(u, markdownPath, i) && u[i] == BlogEntries(u)[k]
    decreases |u|
  {
    var es := BlogEntries(u);
    var tail := BlogEntries(u[1..]);
    if u[0].1.markdownPath == markdownPath {
      assert es == [u[0]] + tail;
      assert es[0].1.markdownPath == markdownPath;
      assert k == 0;
      assert FirstWithPathAt(u, markdownPath, 0);
    } else {
      var k': nat;
      if IsBlogPath(u[0].1.markdownPath) {
        assert es == [u[0]] + tail;
        assert k > 0;
        k' := k - 1;
        forall j | 0 <= j < k'
          ensures tail[j].1.markdownPath != markdownPath
        {
          assert tail[j] == es[j + 1];
        }
        assert tail[k'] == es[k];
      } else {
        assert es == tail;
        k' := k;
      }
      FirstBlogEntryIsFirst(u[1..], markdownPath, k');
      var i: nat :| FirstWithPathAt(u[1..], markdownPath, i) && u[1..][i] == tail[k'];
      forall j | 0 <= j < i + 1
        ensures u[j].1.markdownPath != markdownPath
      {
        if j > 0 {
          assert u[j] == u[1..][j - 1];
        }
      }
      assert FirstWithPathAt(u, markdownPath, i + 1);
    }
  }

  /** Looking a markdown path up among the blog files finds something exactly when it is a
      blog path that some entry has. */
  lemma FindInBlogFiles(repo: string, u: UrlInfo, markdownPath: string)
    ensures FindFile(BlogFiles(repo, u), markdownPath).Some? <==>
      IsBlogPath(markdownPath) && exists e :: e in u && e.1.markdownPath == markdownPath
  {
    var files := BlogFiles(repo, u);
    BlogFilesComplete(repo, u);
    if IsBlogPath(markdownPath) && exists e :: e in u && e.1.markdownPath == markdownPath {
      var e :| e in u && e.1.markdownPath == markdownPath;
      assert FileOf(repo, e) in files;
    }
  }

  /** What it finds is the file of the first entry with that path. */
  lemma FindFirstInBlogFiles(repo: string, u: UrlInfo, markdownPath: string)
    requires FindFile(BlogFiles(repo, u), markdownPath).Some?
    ensures exists i: nat :: FirstWithPathAt(u, markdownPath, i)
                             && FindFile(BlogFiles(repo, u), markdownPath).value == FileOf(repo, u[i])
  {
    var files := BlogFiles(repo, u);
    var r := FindFile(files, markdownPath);
    var k: nat :| FirstFileAt(files, markdownPath, k) && r.value == files[k];
    assert files[k] == FileOf(repo, BlogEntries(u)[k]);
    assert IsBlogPath(markdownPath);
    FirstBlogEntryIsFirst(u, markdownPath, k);
  }

  /** The blog file to download for a markdown path, if that path is a blog post's: the file
      of the first index entry with that path. */
  function FileFor(repo: string, u: UrlInfo, markdownPath: string): (r: Option<BlogFile>)
    ensures r.Some? <==> IsBlogPath(markdownPath) && exists e :: e in u && e.1.markdownPath == markdownPath
    ensures r.Some? ==> r.value.path == markdownPath && r.value in BlogFiles(repo, u)
    ensures r.Some? ==> exists i: nat :: FirstWithPathAt(u, markdownPath, i) && r.value == FileOf(repo, u[i])
  {
    FindInBlogFiles(repo, u, markdownPath);
    if FindFile(BlogFiles(repo, u), markdownPath).Some? then
      FindFirstInBlogFiles(repo, u, markdownPath);
      FindFile(BlogFiles(repo, u), markdownPath)
    else None
  }

  /** The file reached by looking `path` up in `url_info` directly. */
  function DirectFile(repo: string, u: UrlInfo, path: string): (r: Option<BlogFile>)
    ensures r.Some? <==> Lookup(u, path).Some? && FileFor(repo, u, Lookup(u, path).value.markdownPath).Some?
    ensures r.Some? ==> r == FileFor(repo, u, Lookup(u, path).value.markdownPath)
  {
    match Lookup(u, path)
    case None => None
    case Some(info) => if info.markdownPath != "" then FileFor(repo, u, info.markdownPath) else None
  }

  /** The deprecated per-post redirect: the post names `path` (with or without its leading
      slashes) as its old address. */
  predicate RedirectsFrom(info: PostInfo, path: string)
    // the old address is a non-empty tail of `path`: all of it, or what follows its leading slashes
    ensures RedirectsFrom(info, path) ==> info.redirectUrl != "" && EndsWith(path, info.redirectUrl)
  {
    info.redirectUrl != "" && (info.redirectUrl == path || info.redirectUrl == LStripChar(path, '/'))
  }

  /** The entry redirects from `path` and its post has a blog file: its markdown path is a
      blog path that the index holds (which is when `FileFor` finds a file). */
  predicate DeprecatedHit(u: UrlInfo, e: Entry, path: string) {
    && RedirectsFrom(e.1, path)
    && IsBlogPath(e.1.markdownPath)
    && exists d :: d in u && d.1.markdownPath == e.1.markdownPath
  }

  /** A hit is exactly an entry that redirects from `path` and whose post `FileFor` finds. */
  lemma HitHasFile(repo: string, u: UrlInfo, e: Entry, path: string)
    ensures DeprecatedHit(u, e, path) <==> RedirectsFrom(e.1, path) && FileFor(repo, u, e.1.markdownPath).Some?
  {
  }

  /** The position of the first entry of `rest` that `hit` accepts. */
  function FirstWhere(rest: UrlInfo, hit: Entry -> bool): (r: Option<nat>)
    ensures r.None? <==> forall i :: 0 <= i < |rest| ==> !hit(rest[i])
    ensures r.Some? ==> r.value < |rest| && hit(rest[r.value])
    ensures r.Some? ==> forall j :: 0 <= j < r.value ==> !hit(rest[j])
    decreases |rest|
  {
    if |rest| == 0 then None
    else if hit(rest[0]) then Some(0)
    else
      var tail := rest[1..];
      assert forall j :: 0 < j < |rest| ==> rest[j] == tail[j - 1];
      match FirstWhere(tail, hit)
      case None => None
      case Some(i) => Some(i + 1)
  }

  /** The file of the first entry of `rest` that redirects from `path` and whose post has a
      blog file (the fallback loop of `read_blog_post`). */
  function DeprecatedFile(repo: string, u: UrlInfo, rest: UrlInfo, path: string): (r: Option<BlogFile>)
    ensures r.None? <==> forall e :: e in rest && RedirectsFrom(e.1, path) ==> FileFor(repo, u, e.1.markdownPath).None?
    ensures r.Some? ==> exists i: nat :: i < |rest| && DeprecatedHit(u, rest[i], path)
                          && r == FileFor(repo, u, rest[i].1.markdownPath)
                          && forall j :: 0 <= j < i ==> !DeprecatedHit(u, rest[j], path)
  {
    var hit := (e: Entry) => DeprecatedHit(u, e, path);
    match FirstWhere(rest, hit)
    case None =>
      NoHitNoFile(repo, u, rest, path);
      None
    case Some(i) =>
      FirstHitFile(repo, u, rest, path, i);
      FileFor(repo, u, rest[i].1.markdownPath)
  }

  /** With no hit in `rest`, no redirecting entry of `rest` offers a file. */
  lemma NoHitNoFile(repo: string, u: UrlInfo, rest: UrlInfo, path: string)
    requires forall i :: 0 <= i < |rest| ==> !DeprecatedHit(u, rest[i], path)
    ensures forall e :: e in rest && RedirectsFrom(e.1, path) ==> FileFor(repo, u, e.1.markdownPath).None?
  {
    forall e | e in rest && RedirectsFrom(e.1, path)
      ensures FileFor(repo, u, e.1.markdownPath).None?
    {
      var i :| 0 <= i < |rest| && rest[i] == e;
      HitHasFile(repo, u, e, path);
    }
  }

  /** The first hit in `rest` offers a file, and is the witness `DeprecatedFile` promises. */
  lemma FirstHitFile(repo: string, u: UrlInfo, rest: UrlInfo, path: string, i: nat)
    requires i < |rest| && DeprecatedHit(u, rest[i], path)
    requires forall j :: 0 <= j < i ==> !DeprecatedHit(u, rest[j], path)
    ensures FileFor(repo, u, rest[i].1.markdownPath).Some?
    ensures !forall e :: e in rest && RedirectsFrom(e.1, path) ==> FileFor(repo, u, e.1.markdownPath).None?
    ensures exists k: nat :: k < |rest| && DeprecatedHit(u, rest[k], path)
              && FileFor(repo, u, rest[i].1.markdownPath) == FileFor(repo, u, rest[k].1.markdownPath)
              && forall j :: 0 <= j < k ==> !DeprecatedHit(u, rest[j], path)
  {
    HitHasFile(repo, u, rest[i], path);
    assert rest[i] in rest;
  }

  /** How a path was resolved. */
  datatype Route = Direct | ViaRedirect(from: string) | ViaDeprecatedRedirect(from: string)

  datatype Resolution = Resolution(file: BlogFile, route: Route)

  /** The lookup order of `read_blog_post` once the path is known. */
  function ResolvePath(repo: string, data: BlogData, path: string): (r: Option<Resolution>)
    // a direct hit always wins, and a direct result is the direct hit
    ensures DirectFile(repo, data.urlInfo, path).Some? ==>
      r == Some(Resolution(DirectFile(repo, data.urlInfo, path).value, Direct))
    ensures r.Some? && r.value.route.Direct? ==> Some(r.value.file) == DirectFile(repo, data.urlInfo, path)
    // a top-level redirect is followed one hop only, and only when there is no direct hit
    ensures r.Some? && r.value.route.ViaRedirect? ==>
      && r.value.route.from == path
      && DirectFile(repo, data.urlInfo, path).None?
      && path in data.redirects
      && Some(r.value.file) == DirectFile(repo, data.urlInfo, data.redirects[path])
    ensures DirectFile(repo, data.urlInfo, path).None? && path in data.redirects
            && DirectFile(repo, data.urlInfo, data.redirects[path]).Some? ==>
      r == Some(Resolution(DirectFile(repo, data.urlInfo, data.redirects[path]).value, ViaRedirect(path)))
    // the deprecated redirect is the last resort, and takes the first entry that offers a file
    ensures r.Some? && r.value.route.ViaDeprecatedRedirect? ==>
      && r.value.route.from == path
      && DirectFile(repo, data.urlInfo, path).None?
      && (path in data.redirects ==> DirectFile(repo, data.urlInfo, data.redirects[path]).None?)
      && Some(r.value.file) == DeprecatedFile(repo, data.urlInfo, data.urlInfo, path)
    ensures DirectFile(repo, data.urlInfo, path).None?
            && (path in data.redirects ==> DirectFile(repo, data.urlInfo, data.redirects[path]).None?)
            && DeprecatedFile(repo, data.urlInfo, data.urlInfo, path).Some? ==>
      r == Some(Resolution(DeprecatedFile(repo, data.urlInfo, data.urlInfo, path).value, ViaDeprecatedRedirect(path)))
    // nothing is found only when every route fails
    ensures r.None? <==>
      && DirectFile(repo, data.urlInfo, path).None?
      && (path in data.redirects ==> DirectFile(repo, data.urlInfo, data.redirects[path]).None?)
      && forall e :: e in data.urlInfo && RedirectsFrom(e.1, path) ==> FileFor(repo, data.urlInfo, e.1.markdownPath).None?
    ensures r.Some? ==> IsBlogPath(r.value.file.path) && r.value.file in BlogFiles(repo, data.urlInfo)
  {
    var u := data.urlInfo;
    match DirectFile(repo, u, path)
    case Some(f) => Some(Resolution(f, Direct))
    case None =>
      var viaRedirect := if path in data.redirects then DirectFile(repo, u, data.redirects[path]) else None;
      match viaRedirect
      case Some(f) => Some(Resolution(f, ViaRedirect(path)))
      case None =>
        match DeprecatedFile(repo, u, u, path)
        case Some(f) => Some(Resolution(f, ViaDeprecatedRedirect(path)))
        case None => None
  }

  /** `read_blog_post` on a checked argument: the file it downloads and how it got there,
      or the reason it gives up. */
  function Locate(repo: string, data: BlogData, url: string): (r: Result<Resolution, Failure>)
    ensures InputPath(data.urlInfo, url).Err? ==> r == Err(InputPath(data.urlInfo, url).error)
    ensures InputPath(data.urlInfo, url).Ok? ==>
      (r.Err? <==> ResolvePath(repo, data, InputPath(data.urlInfo, url).value).None?)
    ensures InputPath(data.urlInfo, url).Ok? && r.Err? ==> r.error == PostNotFound(url)
    ensures r.Ok? ==> IsBlogPath(r.value.file.path)
    ensures r.Ok? ==> InputPath(data.urlInfo, url).Ok?
                      && ResolvePath(repo, data, InputPath(data.urlInfo, url).value) == Some(r.value)
  {
    match InputPath(data.urlInfo, url)
    case Err(e) => Err(e)
    case Ok(path) =>
      match ResolvePath(repo, data, path)
      case Some(res) => Ok(res)
      case None => Err(PostNotFound(url))
  }

  /** A post's own address resolves to the post directly: resolution leaves a canonical
      path where it is. */
  lemma {:induction false} CanonicalPathResolvesDirectly(repo: string, data: BlogData, path: string, info: PostInfo)
    requires DistinctKeys(data.urlInfo)
    requires (path, info) in data.urlInfo && IsBlogPath(info.markdownPath)
    requires StartsWith(path, "/") && !StartsWith(path, "http") && !Contains(path, ".md")
    ensures Locate(repo, data, path) == Ok(Resolution(FileFor(repo, data.urlInfo, info.markdownPath).value, Direct))
  {
    var u := data.urlInfo;
    var i :| 0 <= i < |u| && u[i] == (path, info);
    assert Lookup(u, path) == Some(info);
    assert (path, info) in u;
    assert FileFor(repo, u, info.markdownPath).Some?;
  }

  /** A redirect whose target has no post of its own is not chased further: a chain
      `/a -> /b -> /c` does not reach `/c` from `/a` through the redirect table. */
  lemma RedirectChainNotFollowed(repo: string, info: PostInfo)
    requires IsBlogPath(info.markdownPath) && info.redirectUrl == ""
    ensures var data := BlogData([("/c", info)], map["/a" := "/b", "/b" := "/c"]);
      && ResolvePath(repo, data, "/a") == None
      && ResolvePath(repo, data, "/b") == Some(Resolution(FileOf(repo, ("/c", info)), ViaRedirect("/b")))
  {
    var data := BlogData([("/c", info)], map["/a" := "/b", "/b" := "/c"]);
    assert Lookup(data.urlInfo, "/a") == None;
    assert Lookup(data.urlInfo, "/b") == None;
    assert Lookup(data.urlInfo, "/c") == Some(info);
    assert BlogFiles(repo, data.urlInfo) == [FileOf(repo, ("/c", info))];
    assert !RedirectsFrom(info, "/a");
  }
}

=== FILE: strings.dfy ===
/** The Python `str` operations the server relies on, over `string` (a sequence of Unicode
    scalar values): `startswith`, `endswith`, `in`, `strip`, `lstrip`, `lower`, `title`,
    `replace`, `split` and slicing. */
module Strings {

  /** The characters Python's `str.isspace()` accepts, which is what `strip()` with no
      argument removes (and what `\s` matches in a `str` regular expression). */
  predicate IsSpace(c: char) {
    || c == ' '
    || ('\t' <= c <= '\r')
    || ('\U{1C}' <= c <= '\U{1F}')
    || c == '\U{85}' || c == '\U{A0}' || c == '\U{1680}'
    || ('\U{2000}' <= c <= '\U{200A}')
    || c == '\U{2028}' || c == '\U{2029}' || c == '\U{202F}' || c == '\U{205F}' || c == '\U{3000}'
  }

  predicate StartsWith(s: string, prefix: string) {
    |prefix| <= |s| && s[..|prefix|] == prefix
  }

  predicate EndsWith(s: string, suffix: string) {
    |suffix| <= |s| && s[|s| - |suffix|..] == suffix
  }

  /** Python's `needle in s`. */
  predicate Contains(s: string, needle: string)
    decreases |s|
  {
    StartsWith(s, needle) || (|s| > 0 && Contains(s[1..], needle))
  }

  /** An occurrence at a known position is an occurrence. */
  lemma {:induction false} ContainsAt(s: string, needle: string, i: nat)
    requires i + |needle| <= |s| && s[i..i + |needle|] == needle
    ensures Contains(s, needle)
    decreases i
  {
    if i > 0 {
      assert s[1..][i - 1..i - 1 + |needle|] == needle;
      ContainsAt(s[1..], needle, i - 1);
    }
  }

  /** A string contains only what fits in it, and contains the empty string. */
  lemma {:induction false} ContainsLength(s: string, needle: string)
    ensures Contains(s, needle) ==> |needle| <= |s|
    ensures needle == [] ==> Contains(s, needle)
    decreases |s|
  {
    if |s| > 0 {
      ContainsLength(s[1..], needle);
    }
  }

  /** Python's `s[:n]` for a non-negative `n`. */
  function Take<T>(s: seq<T>, n: nat): (r: seq<T>)
    ensures |r| == if n < |s| then n else |s|
    ensures r == s[..|r|]
  {
    if n < |s| then s[..n] else s
  }

  // ---------------------------------------------------------------------------
  // strip / lstrip

  /** `s.lstrip()`: drops the leading whitespace. */
  function LStrip(s: string): (r: string)
    ensures |r| <= |s| && r == s[|s| - |r|..]
    ensures forall k :: 0 <= k < |s| - |r| ==> IsSpace(s[k])
    ensures r == [] || !IsSpace(r[0])
    decreases |s|
  {
    if |s| > 0 && IsSpace(s[0]) then LStrip(s[1..]) else s
  }

  /** `s.rstrip()`: drops the trailing whitespace. */
  function RStrip(s: string): (r: string)
    ensures |r| <= |s| && r == s[..|r|]
    ensures forall k :: |r| <= k < |s| ==> IsSpace(s[k])
    ensures r == [] || !IsSpace(r[|r| - 1])
    decreases |s|
  {
    if |s| > 0 && IsSpace(s[|s| - 1]) then RStrip(s[..|s| - 1]) else s
  }

  /** `r` occurs in `s` starting at position `i`. */
  predicate InfixAt(r: string, s: string, i: nat) {
    i + |r| <= |s| && r == s[i..i + |r|]
  }

  /** An occurrence at `i` starts with the pattern's first character. */
  lemma InfixAtHead(r: string, s: string, i: nat)
    requires |r| > 0 && i < |s| && s[i] != r[0]
    ensures !InfixAt(r, s, i)
  {
    if InfixAt(r, s, i) {
      assert s[i..i + |r|][0] == s[i];
    }
  }

  /** `r` is the infix of `s` at position `i`, and every character of `s` before or after it
      satisfies `drop`. */
  predicate FramedBy(r: string, s: string, i: nat, drop: char -> bool) {
    && InfixAt(r, s, i)
    && (forall k :: 0 <= k < i ==> drop(s[k]))
    && (forall k :: i + |r| <= k < |s| ==> drop(s[k]))
  }

  /** `s.strip()`: the largest infix of `s` that neither starts nor ends with whitespace, so
      what is dropped on either side is whitespace and nothing else. */
  function Strip(s: string): (r: string)
    ensures |r| <= |s|
    ensures r == [] || (!IsSpace(r[0]) && !IsSpace(r[|r| - 1]))
    ensures exists i: nat :: FramedBy(r, s, i, IsSpace)
  {
    Framed(s, LStrip(s), RStrip(LStrip(s)), IsSpace);
    RStrip(LStrip(s))
  }

  /** Dropping a prefix and then a suffix of characters satisfying `drop` leaves an infix
      framed by such characters. */
  lemma Framed(s: string, l: string, r: string, drop: char -> bool)
    requires |l| <= |s| && l == s[|s| - |l|..] && forall k :: 0 <= k < |s| - |l| ==> drop(s[k])
    requires |r| <= |l| && r == l[..|r|] && forall k :: |r| <= k < |l| ==> drop(l[k])
    ensures exists i: nat :: FramedBy(r, s, i, drop)
  {
    var i := |s| - |l|;
    assert r == s[i..i + |r|];
    forall k | i + |r| <= k < |s|
      ensures drop(s[k])
    {
      assert s[k] == l[k - i];
    }
    assert FramedBy(r, s, i, drop);
  }

  /** A string with no whitespace at either end is its own `strip()`. */
  lemma {:induction false} StripOfTrimmed(s: string)
    requires s == [] || (!IsSpace(s[0]) && !IsSpace(s[|s| - 1]))
    ensures Strip(s) == s
  {
    assert LStrip(s) == s;
    assert RStrip(s) == s;
  }

  /** Two infixes of `s` framed by `drop` that both neither start nor end with a `drop`
      character are the same infix: the frame decides the result. */
  lemma FramedUnique(r: string, t: string, s: string, i: nat, j: nat, drop: char -> bool)
    requires FramedBy(r, s, i, drop) && FramedBy(t, s, j, drop)
    requires r == [] || (!drop(r[0]) && !drop(r[|r| - 1]))
    requires t == [] || (!drop(t[0]) && !drop(t[|t| - 1]))
    ensures r == t
  {
    if r != [] && t != [] {
      assert r[0] == s[i] && t[0] == s[j];
      assert i == j;
      assert r[|r| - 1] == s[i + |r| - 1] && t[|t| - 1] == s[j + |t| - 1];
      assert |r| == |t|;
    }
  }

  /** The infix framed by whitespace that has no whitespace at its own ends is `strip()`. */
  lemma StripUnique(r: string, s: string, i: nat)
    requires FramedBy(r, s, i, IsSpace)
    requires r == [] || (!IsSpace(r[0]) && !IsSpace(r[|r| - 1]))
    ensures r == Strip(s)
  {
    var j: nat :| FramedBy(Strip(s), s, j, IsSpace);
    FramedUnique(r, Strip(s), s, i, j, IsSpace);
  }

  /** `strip()` is idempotent. */
  lemma StripIdempotent(s: string)
    ensures Strip(Strip(s)) == Strip(s)
  {
    StripOfTrimmed(Strip(s));
  }

  /** `r` is the infix of `s` at position `i`, and every character of `s` before or after it
      is `c`. */
  predicate FramedByChar(r: string, s: string, i: nat, c: char) {
    && InfixAt(r, s, i)
    && (forall k :: 0 <= k < i ==> s[k] == c)
    && (forall k :: i + |r| <= k < |s| ==> s[k] == c)
  }

  /** `s.lstrip(c)` for a one-character argument. */
  function LStripChar(s: string, c: char): (r: string)
    ensures |r| <= |s| && r == s[|s| - |r|..]
    ensures forall k :: 0 <= k < |s| - |r| ==> s[k] == c
    ensures r == [] || r[0] != c
    decreases |s|
  {
    if |s| > 0 && s[0] == c then LStripChar(s[1..], c) else s
  }

  /** `s.rstrip(c)` for a one-character argument. */
  function RStripChar(s: string, c: char): (r: string)
    ensures |r| <= |s| && r == s[..|r|]
    ensures forall k :: |r| <= k < |s| ==> s[k] == c
    ensures r == [] || r[|r| - 1] != c
    decreases |s|
  {
    if |s| > 0 && s[|s| - 1] == c then RStripChar(s[..|s| - 1], c) else s
  }

  /** `s.strip(c)` for a one-character argument: the largest infix of `s` that neither
      starts nor ends with `c`, so only copies of `c` are dropped, and only at the ends. */
  function StripChar(s: string, c: char): (r: string)
    ensures |r| <= |s|
    ensures r == [] || (r[0] != c && r[|r| - 1] != c)
    ensures exists i: nat :: FramedByChar(r, s, i, c)
  {
    CharFramed(s, c);
    RStripChar(LStripChar(s, c), c)
  }

  lemma CharFramed(s: string, c: char)
    ensures exists i: nat :: FramedByChar(RStripChar(LStripChar(s, c), c), s, i, c)
  {
    var l := LStripChar(s, c);
    var r := RStripChar(l, c);
    var i: nat := |s| - |l|;
    assert r == s[i..i + |r|];
    forall k | i + |r| <= k < |s|
      ensures s[k] == c
    {
      assert s[k] == l[k - i];
    }
    assert FramedByChar(r, s, i, c);
  }

  /** What `strip(c)` drops is a run of `c`s, so it is framed by any `drop` that accepts `c`. */
  /** A string that neither starts nor ends with `c` is its own `strip(c)`. */
  lemma StripCharOfTrimmed(s: string, c: char)
    requires s == [] || (s[0] != c && s[|s| - 1] != c)
    ensures StripChar(s, c) == s
  {
    assert LStripChar(s, c) == s;
  }

  /** `strip(c)` removes one enclosing pair of `c`s from a string that has no further `c`
      at either end inside them. */
  lemma StripCharEnclosed(x: string, c: char)
    requires x == [] || (x[0] != c && x[|x| - 1] != c)
    ensures StripChar([c] + x + [c], c) == x
  {
    var s := [c] + x + [c];
    assert s[1..] == x + [c];
    if x == [] {
      assert LStripChar(s[1..], c) == LStripChar([], c);
    } else {
      assert LStripChar(x + [c], c) == x + [c];
      assert (x + [c])[..|x|] == x;
      assert RStripChar(x, c) == x;
    }
  }

  lemma StripCharFramed(s: string, c: char, drop: char -> bool)
    requires drop(c)
    ensures exists i: nat :: FramedBy(StripChar(s, c), s, i, drop)
  {
    var r := StripChar(s, c);
    var i: nat :| FramedByChar(r, s, i, c);
    assert FramedBy(r, s, i, drop);
  }

  /** A frame of `drop` characters is also a frame of any wider class. */
  lemma FramedWeaken(r: string, s: string, drop: char -> bool, wider: char -> bool)
    requires exists i: nat :: FramedBy(r, s, i, drop)
    requires forall c :: drop(c) ==> wider(c)
    ensures exists i: nat :: FramedBy(r, s, i, wider)
  {
    var i: nat :| FramedBy(r, s, i, drop);
    assert FramedBy(r, s, i, wider);
  }

  /** Framing composes: an infix of an infix, each framed by `drop`, is framed by `drop`. */
  lemma FramedTrans(a: string, b: string, c: string, drop: char -> bool)
    requires exists i: nat :: FramedBy(a, b, i, drop)
    requires exists j: nat :: FramedBy(b, c, j, drop)
    ensures exists t: nat :: FramedBy(a, c, t, drop)
  {
    var i: nat :| FramedBy(a, b, i, drop);
    var j: nat :| FramedBy(b, c, j, drop);
    assert b == c[j..j + |b|];
    assert a == b[i..i + |a|];
    forall k | 0 <= k < |a|
      ensures a[k] == c[i + j + k]
    {
      assert a[k] == b[i + k];
    }
    assert a == c[i + j..i + j + |a|];
    forall k | 0 <= k < i + j
      ensures drop(c[k])
    {
      if k >= j {
        assert c[k] == b[k - j];
      }
    }
    forall k | i + j + |a| <= k < |c|
      ensures drop(c[k])
    {
      if k < j + |b| {
        assert c[k] == b[k - j];
      }
    }
    assert FramedBy(a, c, i + j, drop);
  }

  // ---------------------------------------------------------------------------
  // lower / title (ASCII letters only)

  predicate IsUpper(c: char) { 'A' <= c <= 'Z' }
  predicate IsLower(c: char) { 'a' <= c <= 'z' }
  predicate IsLetter(c: char) { IsUpper(c) || IsLower(c) }

  function LowerChar(c: char): (r: char)
    ensures !IsUpper(r)
    ensures IsLetter(c) <==> IsLetter(r)
  {
    if IsUpper(c) then (c as int + 32) as char else c
  }

  function UpperChar(c: char): (r: char)
    ensures !IsLower(r)
    ensures IsLetter(c) <==> IsLetter(r)
  {
    if IsLower(c) then (c as int - 32) as char else c
  }

  /** `s.lower()`. */
  function Lower(s: string): (r: string)
    ensures |r| == |s|
    ensures forall k :: 0 <= k < |s| ==> r[k] == LowerChar(s[k])
  {
    seq(|s|, k requires 0 <= k < |s| => LowerChar(s[k]))
  }

  /** A lower-cased string has no upper-case letter, so lowering it again changes nothing. */
  lemma LowerIdempotent(s: string)
    ensures Lower(Lower(s)) == Lower(s)
  {
  }

  /** `s.title()`: a letter that follows a letter is lowered, any other letter is raised.
      `afterLetter` says whether the character before `s` was a letter. */
  function TitleFrom(s: string, afterLetter: bool): (r: string)
    ensures |r| == |s|
    decreases |s|
  {
    if s == [] then []
    else
      var c := if afterLetter then LowerChar(s[0]) else UpperChar(s[0]);
      [c] + TitleFrom(s[1..], IsLetter(s[0]))
  }

  /** `s.title()`: only letter case changes; every letter that starts the string or follows
      a non-letter is not lower-case, and every letter that follows a letter is not upper-case. */
  function Title(s: string): (r: string)
    ensures |r| == |s|
    ensures Lower(r) == Lower(s)
    ensures forall k :: 0 <= k < |s| ==> IsLetter(r[k]) == IsLetter(s[k])
    ensures forall k :: 0 <= k < |s| && !IsLetter(s[k]) ==> r[k] == s[k]
    ensures forall k :: 0 <= k < |s| && (k == 0 || !IsLetter(s[k - 1])) ==> !IsLower(r[k])
    ensures forall k :: 0 < k < |s| && IsLetter(s[k - 1]) ==> !IsUpper(r[k])
  {
    TitleShape(s, false);
    TitleLowers(s, false);
    TitleFrom(s, false)
  }

  /** Title-casing and then lower-casing is the same as lower-casing. */
  lemma {:induction false} TitleLowers(s: string, afterLetter: bool)
    ensures Lower(TitleFrom(s, afterLetter)) == Lower(s)
    decreases |s|
  {
    if s != [] {
      var t := TitleFrom(s, afterLetter);
      TitleLowers(s[1..], IsLetter(s[0]));
      assert t[1..] == TitleFrom(s[1..], IsLetter(s[0]));
      assert LowerChar(t[0]) == LowerChar(s[0]);
      forall k | 0 < k < |s|
        ensures Lower(t)[k] == Lower(s)[k]
      {
        assert Lower(t[1..])[k - 1] == Lower(s[1..])[k - 1];
      }
    }
  }

  /** The shape of a title-cased string stated on the string itself. */
  lemma TitleCaseOwnShape(s: string)
    ensures var r := Title(s);
      && (forall k :: 0 <= k < |r| && (k == 0 || !IsLetter(r[k - 1])) ==> !IsLower(r[k]))
      && (forall k :: 0 < k < |r| && IsLetter(r[k - 1]) ==> !IsUpper(r[k]))
      && (forall k :: 0 <= k < |r| - 1 && r[k] == '.' ==> r[k + 1] != 'm')
  {
    var r := Title(s);
    forall k | 0 <= k < |r| && (k == 0 || !IsLetter(r[k - 1]))
      ensures !IsLower(r[k])
    {
      assert k == 0 || !IsLetter(s[k - 1]);
    }
    forall k | 0 < k < |r| && IsLetter(r[k - 1])
      ensures !IsUpper(r[k])
    {
      assert IsLetter(s[k - 1]);
    }
    forall k | 0 <= k < |r| - 1 && r[k] == '.'
      ensures r[k + 1] != 'm'
    {
      assert !IsLetter(s[k]);
    }
  }

  /** Every word of a title-cased string starts with an upper-case letter and continues
      in lower case; nothing but letter case changes. */
  lemma {:induction false} TitleShape(s: string, afterLetter: bool)
    ensures forall k :: 0 <= k < |s| ==> IsLetter(TitleFrom(s, afterLetter)[k]) == IsLetter(s[k])
    ensures forall k :: 0 <= k < |s| && !IsLetter(s[k]) ==> TitleFrom(s, afterLetter)[k] == s[k]
    ensures forall k :: 0 < k < |s| && IsLetter(s[k - 1]) ==> !IsUpper(TitleFrom(s, afterLetter)[k])
    ensures forall k :: 0 < k < |s| && !IsLetter(s[k - 1]) ==> !IsLower(TitleFrom(s, afterLetter)[k])
    ensures |s| > 0 ==> if afterLetter then !IsUpper(TitleFrom(s, afterLetter)[0])
                        else !IsLower(TitleFrom(s, afterLetter)[0])
    decreases |s|
  {
    if s != [] {
      var t := TitleFrom(s, afterLetter);
      TitleShape(s[1..], IsLetter(s[0]));
      assert t[1..] == TitleFrom(s[1..], IsLetter(s[0]));
      forall k | 0 < k < |s|
        ensures t[k] == TitleFrom(s[1..], IsLetter(s[0]))[k - 1] && s[k] == s[1..][k - 1]
      {
      }
    }
  }

  // ---------------------------------------------------------------------------
  // replace

  /** `pat` occurs in `s` at `i`, and nowhere before `i`. */
  predicate FirstOccurrenceAt(s: string, pat: string, i: nat) {
    && InfixAt(pat, s, i)
    && forall j :: 0 <= j < i ==> !InfixAt(pat, s, j)
  }

  /** `s.replace(pat, rep)`: every non-overlapping occurrence of `pat`, scanning from the
      left, is replaced by `rep`. A string without `pat` comes back unchanged; otherwise the
      text before the first occurrence is kept, that occurrence becomes `rep`, and the rest
      is replaced in the same way (`ReplaceFirst`). No character appears that was in neither `s` nor `rep`,
      and a replacement no longer than the pattern never lengthens the string. */
  function Replace(s: string, pat: string, rep: string): (r: string)
    requires |pat| > 0
    ensures !Contains(s, pat) ==> r == s
    ensures StartsWith(s, pat) ==> StartsWith(r, rep)
    ensures |rep| <= |pat| ==> |r| <= |s|
    ensures |rep| <= |pat| && StartsWith(s, pat) ==> |r| + |pat| <= |s| + |rep|
    ensures forall x :: x in r ==> x in s || x in rep
    ensures |pat| == 1 && |rep| == 1 ==>
      |r| == |s| && forall k :: 0 <= k < |s| ==> r[k] == (if s[k] == pat[0] then rep[0] else s[k])
    decreases |s|
  {
    if |s| < |pat| then s
    else if s[..|pat|] == pat then
      var t := Replace(s[|pat|..], pat, rep);
      assert forall x :: x in s[|pat|..] ==> x in s;
      assert |pat| == 1 ==> forall k :: 1 <= k < |s| ==> s[k] == s[|pat|..][k - 1];
      rep + t
    else
      var t := Replace(s[1..], pat, rep);
      assert s == [s[0]] + s[1..];
      assert forall x :: x in s[1..] ==> x in s;
      assert |pat| == 1 ==> s[0] != pat[0];
      [s[0]] + t
  }

  /** The text before the first occurrence of the pattern is kept, that occurrence becomes
      the replacement, and the rest of the text is replaced in turn. */
  lemma ReplaceFirst(s: string, pat: string, rep: string, i: nat)
    requires |pat| > 0
    requires FirstOccurrenceAt(s, pat, i)
    ensures Replace(s, pat, rep) == s[..i] + rep + Replace(s[i + |pat|..], pat, rep)
  {
    ReplaceKeepsPrefix(s, pat, rep, i);
    ReplaceAtOccurrence(s, pat, rep, i);
    ConcatAssoc(s[..i], rep, Replace(s[i + |pat|..], pat, rep));
  }

  /** Text before `i` where no occurrence starts is kept by `Replace`. */
  lemma ReplaceKeepsPrefix(s: string, pat: string, rep: string, i: nat)
    requires |pat| > 0 && i + |pat| <= |s|
    requires forall j :: 0 <= j < i ==> !InfixAt(pat, s, j)
    ensures Replace(s, pat, rep) == s[..i] + Replace(s[i..], pat, rep)
  {
    assert s[..0] + Replace(s[0..], pat, rep) == Replace(s, pat, rep) by {
      assert s[..0] == [] && s[0..] == s;
    }
    var k := 0;
    while k < i
      invariant k <= i
      invariant Replace(s, pat, rep) == s[..k] + Replace(s[k..], pat, rep)
    {
      ReplaceSkipAt(s, pat, rep, k);
      AppendRegroup(s, k, Replace(s[k + 1..], pat, rep));
      k := k + 1;
    }
  }

  /** At an occurrence, `Replace` of the suffix starts with the replacement. */
  lemma ReplaceAtOccurrence(s: string, pat: string, rep: string, i: nat)
    requires |pat| > 0 && InfixAt(pat, s, i)
    ensures Replace(s[i..], pat, rep) == rep + Replace(s[i + |pat|..], pat, rep)
  {
    assert s[i..][..|pat|] == s[i..i + |pat|];
    ReplaceAtStart(s[i..], pat, rep);
    assert s[i..][|pat|..] == s[i + |pat|..];
  }

  lemma ConcatAssoc<T>(a: seq<T>, b: seq<T>, c: seq<T>)
    ensures a + (b + c) == a + b + c
  {
  }

  /** Where no occurrence starts at `k`, `Replace` of the suffix from `k` keeps `s[k]`. */
  lemma ReplaceSkipAt(s: string, pat: string, rep: string, k: nat)
    requires |pat| > 0 && k + |pat| <= |s| && !InfixAt(pat, s, k)
    ensures Replace(s[k..], pat, rep) == [s[k]] + Replace(s[k + 1..], pat, rep)
  {
    assert s[k..][..|pat|] == s[k..k + |pat|];
    ReplaceSkip(s[k..], pat, rep);
    assert s[k..][1..] == s[k + 1..];
  }

  /** Moving one kept character from the replaced suffix onto the prefix. */
  lemma AppendRegroup(s: string, k: nat, x: string)
    requires k < |s|
    ensures s[..k] + ([s[k]] + x) == s[..k + 1] + x
  {
    assert s[..k + 1] == s[..k] + [s[k]];
  }

  /** One step of `Replace` on a text that starts with the pattern. */
  lemma ReplaceAtStart(s: string, pat: string, rep: string)
    requires |pat| > 0 && StartsWith(s, pat)
    ensures Replace(s, pat, rep) == rep + Replace(s[|pat|..], pat, rep)
  {
  }

  /** One step of `Replace` on a text long enough for the pattern that does not start with it. */
  lemma ReplaceSkip(s: string, pat: string, rep: string)
    requires |pat| > 0 && |pat| <= |s| && !StartsWith(s, pat)
    ensures Replace(s, pat, rep) == [s[0]] + Replace(s[1..], pat, rep)
  {
  }

  /** Replacing a character by anything that does not contain it leaves no occurrence of it. */
  lemma {:induction false} ReplaceCharRemoves(s: string, c: char, rep: string)
    requires forall k :: 0 <= k < |rep| ==> rep[k] != c
    ensures forall k :: 0 <= k < |Replace(s, [c], rep)| ==> Replace(s, [c], rep)[k] != c
    decreases |s|
  {
    if |s| >= 1 {
      ReplaceCharRemoves(s[1..], c, rep);
    }
  }

  // ---------------------------------------------------------------------------
  // split / join

  /** `s.split(sep)` for a one-character separator: never empty, and `"".split(sep)` is `[""]`. */
  function Split(s: string, sep: char): (r: seq<string>)
    ensures |r| >= 1
    ensures forall i, k :: 0 <= i < |r| && 0 <= k < |r[i]| ==> r[i][k] != sep
    decreases |s|
  {
    if s == [] then [""]
    else
      var rest := Split(s[1..], sep);
      if s[0] == sep then [""] + rest
      else [[s[0]] + rest[0]] + rest[1..]
  }

  /** `sep.join(parts)`. */
  function Join(parts: seq<string>, sep: char): string
    decreases |parts|
  {
    if |parts| == 0 then ""
    else if |parts| == 1 then parts[0]
    else parts[0] + [sep] + Join(parts[1..], sep)
  }

  /** Splitting and joining on the same separator gives back the original string. */
  lemma {:induction false} JoinSplit(s: string, sep: char)
    ensures Join(Split(s, sep), sep) == s
    decreases |s|
  {
    if s != [] {
      var rest := Split(s[1..], sep);
      JoinSplit(s[1..], sep);
      if s[0] == sep {
        assert Join([""] + rest, sep) == "" + [sep] + Join(rest, sep);
      } else {
        var parts := [[s[0]] + rest[0]] + rest[1..];
        if |rest| == 1 {
          assert Join(parts, sep) == [s[0]] + rest[0];
        } else {
          assert parts[1..] == rest[1..];
          assert Join(rest, sep) == rest[0] + [sep] + Join(rest[1..], sep);
          assert Join(parts, sep) == [s[0]] + rest[0] + [sep] + Join(rest[1..], sep);
        }
      }
    }
  }

  /** Joining two or more parts yields something longer than the last part alone. */
  lemma {:induction false} JoinLongerThanLast(parts: seq<string>, sep: char)
    requires |parts| > 1
    ensures |Join(parts, sep)| > |parts[|parts| - 1]|
    decreases |parts|
  {
    if |parts| > 2 {
      JoinLongerThanLast(parts[1..], sep);
    }
  }

  /** `s.split(sep)[-1]`: the text after the last separator, or all of `s` when there is none. */
  function LastSegment(s: string, sep: char): (r: string)
    ensures EndsWith(s, r)
    ensures forall k :: 0 <= k < |r| ==> r[k] != sep
    ensures |r| < |s| ==> s[|s| - |r| - 1] == sep
  {
    LastSegmentProps(s, sep);
    var parts := Split(s, sep);
    parts[|parts| - 1]
  }

  lemma {:induction false} LastSegmentProps(s: string, sep: char)
    ensures var parts := Split(s, sep);
      var r := parts[|parts| - 1];
      && EndsWith(s, r)
      && (|r| < |s| ==> s[|s| - |r| - 1] == sep)
    decreases |s|
  {
    if s != [] {
      LastSegmentProps(s[1..], sep);
      var rest := Split(s[1..], sep);
      var r := rest[|rest| - 1];
      if s[0] != sep && |rest| == 1 {
        JoinSplit(s[1..], sep);
        assert Split(s, sep) == [[s[0]] + rest[0]];
        assert s == [s[0]] + s[1..];
      } else {
        assert Split(s, sep)[|Split(s, sep)| - 1] == r;
        assert s[1..][|s[1..]| - |r|..] == s[|s| - |r|..];
        if |rest| > 1 {
          JoinSplit(s[1..], sep);
          JoinLongerThanLast(rest, sep);
        }
      }
    }
  }
}

=== FILE: tools.dfy ===
/** The tools as a caller sees them: each checks its arguments, validates the repository,
    reads the index through the cache, and runs its query, in the order the source does.
    Replies are structured values instead of formatted text or JSON. */
module Tools {
  import opened Wrappers
  import opened Strings
  import opened Errors
  import opened Index
  import opened Cache
  import opened Repos
  import opened Ordering
  import opened Queries
  import opened Resolve
  import opened Markdown
  import opened Changes

  /** The server's mutable state: the allow-list and the metadata cache. */
  datatype Server = Server(allowed: seq<string>, caches: RepoCaches)

  /** A tool's answer and the cache it leaves behind. */
  datatype Reply<T> = Reply(result: Result<T, Failure>, caches: RepoCaches)

  /** `blog_search(query, limit, repo)` at clock reading `now`, `fetch` standing for the
      metadata download should the cache miss. */
  method BlogSearch(server: Server, now: real, fetch: FetchOutcome, query: string, limit: LimitArg, repo: Option<string>)
    returns (reply: Reply<SearchReply>)
    // an empty query is refused before the repository is looked at or anything is fetched
    ensures Strip(query) == "" ==> reply == Reply(Err(EmptyQuery), server.caches)
    // an unknown repository is refused without touching the cache
    ensures Strip(query) != "" && ValidateRepo(server.allowed, DefaultRepo, repo).Err? ==>
      reply == Reply(Err(ValidateRepo(server.allowed, DefaultRepo, repo).error), server.caches)
    // otherwise the cache is consulted exactly as `get_blog_data` does
    ensures Strip(query) != "" && ValidateRepo(server.allowed, DefaultRepo, repo).Ok? ==>
      reply.caches == GetBlogData(server.caches, ValidateRepo(server.allowed, DefaultRepo, repo).value, now, fetch).caches
    // results: at most the clamped limit, each a blog post matching the normalised query
    ensures reply.result.Ok? ==>
      && reply.result.value.limit == ClampLimit(limit, SearchMaxLimit, SearchDefaultLimit)
      && reply.result.value.query == NormalizeQuery(query).value
      && |reply.result.value.hits| <= ClampLimit(limit, SearchMaxLimit, SearchDefaultLimit)
      && forall h :: h in reply.result.value.hits ==> IsBlogPath(h.post.markdownPath)
  {
    var normalized := NormalizeQuery(query);
    if normalized.Err? {
      return Reply(Err(normalized.error), server.caches);
    }
    var lim := ClampLimit(limit, SearchMaxLimit, SearchDefaultLimit);
    var repoName := ValidateRepo(server.allowed, DefaultRepo, repo);
    if repoName.Err? {
      return Reply(Err(repoName.error), server.caches);
    }
    var got := GetBlogData(server.caches, repoName.value, now, fetch);
    var u := got.data.urlInfo;
    var result := Search(repoName.value, u, normalized.value, lim);
    if result.Ok? {
      forall h | h in result.value.hits
        ensures IsBlogPath(h.post.markdownPath)
      {
        var i :| 0 <= i < |result.value.hits| && result.value.hits[i] == h;
        var e := AllMatches(u, normalized.value)[i];
        assert e in AllMatches(u, normalized.value);
      }
    }
    reply := Reply(result, got.caches);
  }

  /** `recent_blog_posts(limit, repo)`. */
  function RecentBlogPosts(server: Server, now: real, fetch: FetchOutcome, limit: LimitArg, repo: Option<string>)
    : (reply: Reply<seq<Post>>)
    ensures ValidateRepo(server.allowed, DefaultRepo, repo).Err? ==>
      reply == Reply(Err(ValidateRepo(server.allowed, DefaultRepo, repo).error), server.caches)
    ensures ValidateRepo(server.allowed, DefaultRepo, repo).Ok? ==>
      var name := ValidateRepo(server.allowed, DefaultRepo, repo).value;
      var got := GetBlogData(server.caches, name, now, fetch);
      && reply.caches == got.caches
      && (reply.result.Err? <==> BlogEntries(got.data.urlInfo) == [])
      && (reply.result.Ok? ==>
            |reply.result.value| == Min(ClampLimit(limit, RecentMaxLimit, RecentDefaultLimit), |BlogEntries(got.data.urlInfo)|))
      // the listing is the index's recent posts under the clamped limit
      && reply.result == RecentPosts(name, got.data.urlInfo, ClampLimit(limit, RecentMaxLimit, RecentDefaultLimit))
    ensures reply.result.Ok? ==> |reply.result.value| <= RecentMaxLimit
    ensures reply.result.Ok? ==> Descending(reply.result.value)
  {
    var lim := ClampLimit(limit, RecentMaxLimit, RecentDefaultLimit);
    match ValidateRepo(server.allowed, DefaultRepo, repo)
    case Err(e) => Reply(Err(e), server.caches)
    case Ok(name) =>
      var got := GetBlogData(server.caches, name, now, fetch);
      var result := RecentPosts(name, got.data.urlInfo, lim);
      if result.Ok? then
        RecentPostsAreNewest(name, got.data.urlInfo, lim);
        Reply(result, got.caches)
      else Reply(result, got.caches)
  }

  function Min(a: nat, b: nat): nat {
    if a < b then a else b
  }

  /** `all_blog_posts(repo)`. */
  function AllBlogPosts(server: Server, now: real, fetch: FetchOutcome, repo: Option<string>)
    : (reply: Reply<seq<Post>>)
    ensures ValidateRepo(server.allowed, DefaultRepo, repo).Err? ==>
      reply == Reply(Err(ValidateRepo(server.allowed, DefaultRepo, repo).error), server.caches)
    ensures ValidateRepo(server.allowed, DefaultRepo, repo).Ok? ==>
      var name := ValidateRepo(server.allowed, DefaultRepo, repo).value;
      var got := GetBlogData(server.caches, name, now, fetch);
      && reply.caches == got.caches
      && (reply.result.Err? <==> BlogEntries(got.data.urlInfo) == [])
      && (reply.result.Ok? ==> multiset(reply.result.value) == multiset(PostsOf(BlogEntries(got.data.urlInfo))))
      // the listing is every blog post of the index in `all_blog_posts`' order
      && reply.result == AllPosts(name, got.data.urlInfo)
    ensures reply.result.Ok? ==> Descending(reply.result.value)
  {
    match ValidateRepo(server.allowed, DefaultRepo, repo)
    case Err(e) => Reply(Err(e), server.caches)
    case Ok(name) =>
      var got := GetBlogData(server.caches, name, now, fetch);
      var result := AllPosts(name, got.data.urlInfo);
      if result.Ok? then
        AllPostsOrdered(name, got.data.urlInfo, "");
        Reply(result, got.caches)
      else Reply(result, got.caches)
  }

  /** What `read_blog_post` shows: the parsed post and how its path was resolved. */
  datatype ReadPost = ReadPost(post: ParsedPost, route: Route)

  /** `read_blog_post(url, repo)`; `download` stands for fetching the resolved markdown file. */
  function ReadBlogPost(server: Server, now: real, fetch: FetchOutcome, download: Download, url: string, repo: Option<string>)
    : (reply: Reply<ReadPost>)
    // an empty argument is refused before anything else
    ensures |Strip(url)| == 0 ==> reply == Reply(Err(EmptyUrl), server.caches)
    ensures |Strip(url)| > 0 && ValidateRepo(server.allowed, DefaultRepo, repo).Err? ==>
      reply == Reply(Err(ValidateRepo(server.allowed, DefaultRepo, repo).error), server.caches)
    ensures |Strip(url)| > 0 && ValidateRepo(server.allowed, DefaultRepo, repo).Ok? ==>
      var name := ValidateRepo(server.allowed, DefaultRepo, repo).value;
      var got := GetBlogData(server.caches, name, now, fetch);
      var located := Locate(name, got.data, Strip(url));
      && reply.caches == got.caches
      && (reply.result.Ok? <==> located.Ok?)
      && (reply.result.Ok? ==>
            && reply.result.value.route == located.value.route
            && reply.result.value.post == ParseMarkdownContent(located.value.file, download))
  {
    match CheckUrl(url)
    case Err(e) => Reply(Err(e), server.caches)
    case Ok(checked) =>
      match ValidateRepo(server.allowed, DefaultRepo, repo)
      case Err(e) => Reply(Err(e), server.caches)
      case Ok(name) =>
        var got := GetBlogData(server.caches, name, now, fetch);
        match Locate(name, got.data, checked)
        case Err(e) => Reply(Err(e), got.caches)
        case Ok(res) => Reply(Ok(ReadPost(ParseMarkdownContent(res.file, download), res.route)), got.caches)
  }

  /** `random_blog_url(repo)`; `draw` stands for `random.choice`'s pick. */
  function RandomBlogUrl(server: Server, now: real, fetch: FetchOutcome, draw: nat, repo: Option<string>)
    : (reply: Reply<string>)
    ensures ValidateRepo(server.allowed, DefaultRepo, repo).Err? ==> reply.caches == server.caches && reply.result.Err?
    ensures ValidateRepo(server.allowed, DefaultRepo, repo).Ok? ==>
      var name := ValidateRepo(server.allowed, DefaultRepo, repo).value;
      var got := GetBlogData(server.caches, name, now, fetch);
      && reply.caches == got.caches
      && (reply.result.Err? <==> BlogEntries(got.data.urlInfo) == [])
      && (reply.result.Ok? ==> exists e :: e in got.data.urlInfo && IsBlogPath(e.1.markdownPath)
                                              && reply.result.value == BlogUrl + e.0)
  {
    match ValidateRepo(server.allowed, DefaultRepo, repo)
    case Err(e) => Reply(Err(e), server.caches)
    case Ok(name) =>
      var got := GetBlogData(server.caches, name, now, fetch);
      var files := BlogFiles(name, got.data.urlInfo);
      BlogFilesComplete(name, got.data.urlInfo);
      match RandomFile(name, files, draw)
      case Err(e) => Reply(Err(e), got.caches)
      case Ok(f) => Reply(Ok(f.htmlUrl), got.caches)
  }

  /** What `random_blog` shows: the parsed post, or only its URL. */
  datatype RandomPost = WithContent(post: ParsedPost) | UrlOnly(url: string)

  /** `random_blog(include_content, repo)`; `draw` stands for `random.choice`'s pick and
      `download` for fetching the picked file. */
  function RandomBlog(server: Server, now: real, fetch: FetchOutcome, draw: nat, download: Download,
                      includeContent: bool, repo: Option<string>)
    : (reply: Reply<RandomPost>)
    ensures ValidateRepo(server.allowed, DefaultRepo, repo).Err? ==> reply.caches == server.caches && reply.result.Err?
    ensures ValidateRepo(server.allowed, DefaultRepo, repo).Ok? ==>
      var name := ValidateRepo(server.allowed, DefaultRepo, repo).value;
      var got := GetBlogData(server.caches, name, now, fetch);
      && reply.caches == got.caches
      && (reply.result.Err? <==> BlogEntries(got.data.urlInfo) == [])
      && (reply.result.Ok? ==> (reply.result.value.WithContent? <==> includeContent))
      && (reply.result.Ok? ==>
            exists f :: f in BlogFiles(name, got.data.urlInfo) &&
              (if includeContent then reply.result.value.post == ParseMarkdownContent(f, download)
               else reply.result.value.url == f.htmlUrl))
  {
    match ValidateRepo(server.allowed, DefaultRepo, repo)
    case Err(e) => Reply(Err(e), server.caches)
    case Ok(name) =>
      var got := GetBlogData(server.caches, name, now, fetch);
      var files := BlogFiles(name, got.data.urlInfo);
      BlogFilesComplete(name, got.data.urlInfo);
      match RandomFile(name, files, draw)
      case Err(e) => Reply(Err(e), got.caches)
      case Ok(f) =>
        var shown := if includeContent then WithContent(ParseMarkdownContent(f, download)) else UrlOnly(f.htmlUrl);
        Reply(Ok(shown), got.caches)
  }

  /** `get_recent_changes` up to the commits request: the arguments are checked before the
      repository, and the cache is never consulted. */
  function RecentChangesRequest(server: Server, path: Option<string>, days: Option<int>, commits: Option<int>,
                                includeDiff: bool, repo: Option<string>)
    : (r: Result<(string, CommitsRequest), Failure>)
    ensures !ArgumentsValid(path, days, commits, includeDiff) ==> r == Err(PlanRecentChanges(path, days, commits, includeDiff).error)
    ensures ArgumentsValid(path, days, commits, includeDiff) ==>
      (r.Ok? <==> ValidateRepo(server.allowed, DefaultRepo, repo).Ok?)
    ensures r.Ok? ==>
      && r.value.0 == ValidateRepo(server.allowed, DefaultRepo, repo).value
      && Ok(r.value.1) == PlanRecentChanges(path, days, commits, includeDiff)
  {
    match PlanRecentChanges(path, days, commits, includeDiff)
    case Err(e) => Err(e)
    case Ok(request) =>
      match ValidateRepo(server.allowed, DefaultRepo, repo)
      case Err(e) => Err(e)
      case Ok(name) => Ok((name, request))
  }
}

=== FILE: wrappers.dfy ===
/** Option and Result, the failure-carrying values every operation of the model returns
    in place of the server's exceptions and "Error: ..." replies. */
module Wrappers {

  datatype Option<+T> = None | Some(value: T) {

    /** The wrapped value, or `default` when there is none (Python's `dict.get(key, default)`). */
    function GetOr(default: T): T {
      match this
      case Some(v) => v
      case None => default
    }
  }

  datatype Result<+R, +E> = Ok(value: R) | Err(error: E)
}
